=== FILE: README.md ===
# Stealth-Simulator guard decision core in Dafny

This project models the decision logic that the guards of the Stealth-Simulator
run on every tick:

- **Navmesh path finding** (`PathFinding`). It resolves a point to a navmesh
  polygon: the first polygon that contains the point, otherwise the nearest one.
  It runs an A* search over polygon adjacency, where costs are chained through
  the entry points. It rebuilds the polygon corridor from the predecessor links,
  builds the funnel portals, and sums the path length. The road-map overload of
  the same search is modelled too. As written, its open list is never seeded, so
  its loop is modelled and proved on any queue it is given, and its result is
  pinned for the unseeded queue it actually gets.
- **Road-map probability field** (`Searcher`):
  - one tick of the simple model or of the diffusion model, with the running
    tick maximum;
  - normalisation of the field;
  - the choice of the search segment a guard should go to next.
- **Stalest-polygon patrol** (`VisMeshGuard`): a single pass over the visibility
  mesh that prefers a nearer polygon among polygons whose staleness differs by
  less than one.

Modules:

- `Wrappers`: `Option`, `Result`
- `ExtReals`: the float infinities used as sentinels
- `Geometry`: points, midpoints, distance as a parameter
- `Lists`: first-match scans, reversal
- `PriorityQueue`: the external priority queue, as a bag with pop-min
- `NavMesh`: polygons and the point lookups
- `NavMeshSearch`: the A* loop and corridor reconstruction
- `PathFinding`: funnel portals, path assembly, path length, `KeyByValue`
- `RoadMapPathFinding`: the way-point overloads
- `Searcher`
- `VisMeshGuard`

Modelling choices:

- Polygons, road-map lines and way points are addressed by their index in their
  list.
- A well-formed navmesh lists no polygon as its own neighbour. This matters in
  the source: a polygon is closed only after its neighbour loop
  (PathFinding.cs:73-99), so a self-listed polygon could become its own
  predecessor, and the corridor rebuild (lines 109-118) would never end.
- The geometry that other files compute is passed in as function values. This
  covers the distance, point-in-polygon, closest intersection, diagonal
  midpoints and endpoints, funnel corners, segment fitness and the line
  updates. Of the distance, only non-negativity is assumed, and only where a
  contract says so.
- Numbers are exact reals. `Mathf.Infinity` and `Mathf.NegativeInfinity` are the
  `PosInf` and `NegInf` of `ExtReals`.

## Model

| member | source | states |
|---|---|---|
| NavMesh.CorrespondingPolygon | Assets/Resources/Scripts/Utility/PathFinding.cs:189-216 | The result is `null` exactly for an empty mesh. If some polygon contains the point, the result is the first such polygon in list order. Otherwise it is a polygon of least closest-intersection distance, strictly nearer than every earlier polygon, so the earliest wins ties. |
| NavMesh.ClosestPolygon | Assets/Resources/Scripts/Utility/PathFinding.cs:199-215 | The `minDistance`/`closestPolygon` scan, started at infinity, ends on a polygon of least distance with no earlier polygon at that distance. It finds one whenever the mesh is non-empty. |
| NavMesh.VisibilityPolygonAt | Assets/Resources/Scripts/Utility/PathFinding.cs:218-225 | The result is the first visibility polygon that contains the point. It is `null` exactly when none does. |
| Lists.FirstIndex | Assets/Resources/Scripts/Utility/PathFinding.cs:192-194 | The first-match `foreach ... return` scan gives the least index that satisfies the test. It gives nothing exactly when no index does. |
| NavMeshSearch.InitialNodes | Assets/Resources/Scripts/Utility/PathFinding.cs:52-63 | After the reset, every polygon other than the start has g = h = infinity and no predecessor. The start has g = 0, h = the distance from the start point to the destination point, and the start point as its entry point. |
| NavMeshSearch.CostValue | Assets/Resources/Scripts/Utility/PathFinding.cs:132-154 | The new g is the predecessor's g plus one leg from the predecessor's entry point. Into the destination polygon the leg ends at the destination point; into any other polygon it ends at the midpoint of the diagonal that polygon reports towards the predecessor. With a non-negative distance the new g is never below the predecessor's. |
| NavMeshSearch.HeuristicMeasuresFromEntry | Assets/Resources/Scripts/Utility/PathFinding.cs:59-92 | Every reached polygon's h is the distance from its entry point to the destination point. Seeding sets this up for the start polygon, whose entry point is the start point. Relaxation keeps it, because a relaxed neighbour's h is measured from the diagonal midpoint that becomes its entry point. |
| NavMeshSearch.Relax | Assets/Resources/Scripts/Utility/PathFinding.cs:81-93 | Only the relaxed neighbour changes. Its g, h, predecessor and entry point are replaced exactly when its stored g + h is strictly greater than the new total. Afterwards its total is finite and bounded by both the old and the new total. |
| NavMeshSearch.EqualTotalKeepsPredecessor | Assets/Resources/Scripts/Utility/PathFinding.cs:86-93 | On an equal total the relaxation changes nothing, so the old predecessor stays. |
| NavMeshSearch.InitialConsistent | Assets/Resources/Scripts/Utility/PathFinding.cs:52-67 | The seeded state satisfies the search invariant: no predecessors and nothing closed. |
| NavMeshSearch.ExpandKeepsConsistent | Assets/Resources/Scripts/Utility/PathFinding.cs:99 | Closing a reached polygon keeps every predecessor closed before its successor. |
| NavMeshSearch.RelaxKeepsConsistent | Assets/Resources/Scripts/Utility/PathFinding.cs:79-93 | Relaxing an unclosed neighbour of a closed polygon keeps the invariant. Every polygon reached before stays reached. |
| NavMeshSearch.RelaxNeighbours | Assets/Resources/Scripts/Utility/PathFinding.cs:73-97 | Polygons closed before this expansion, and polygons that are not neighbours, are left exactly as they were. Every other neighbour ends up with its relaxation from the expanded polygon. The queue grows by exactly one entry per neighbour not closed, in neighbour order, keyed by that neighbour's stored g + h, whether or not it improved. The search invariant is kept. |
| NavMeshSearch.RelaxAgain | Assets/Resources/Scripts/Utility/PathFinding.cs:81-93 | Relaxing a neighbour a second time from the same expanded polygon changes nothing more, so a neighbour listed twice is queued twice with the same key. |
| NavMeshSearch.Search | Assets/Resources/Scripts/Utility/PathFinding.cs:49-104 | The A* loop terminates, with the queue treated as a multiset. It stops either right after expanding the destination polygon, which is then the last polygon expanded, or when the queue is empty, and then every reached polygon has been expanded. Every neighbour of an expanded polygon has been reached. The start polygon is expanded, and every predecessor was expanded before the polygon that points to it, so the links are acyclic. |
| NavMeshSearch.ExpandNext | Assets/Resources/Scripts/Utility/PathFinding.cs:71-99 | One iteration pops an entry of least key from the queue and expands its polygon. Polygons closed before, and non-neighbours, keep their state. Every unclosed neighbour holds its relaxation from the expanded polygon. The queue becomes the rest of the old queue plus one entry per unclosed neighbour. The loop invariant is kept, and the termination measure strictly drops. |
| NavMeshSearch.DestinationReached | Assets/Resources/Scripts/Utility/PathFinding.cs:69-124 | If the destination polygon can be reached from the start polygon through adjacent polygons, the search reaches it and the polygon path ends there. |
| NavMeshSearch.ChainFacts | Assets/Resources/Scripts/Utility/PathFinding.cs:109-118 | The predecessor chain of a polygon ends at that polygon and starts at a successor of the start polygon. Each polygon's predecessor is the one before it. The chain climbs strictly in expansion order, so it never repeats a polygon or returns to the start polygon. |
| NavMeshSearch.PolygonPath | Assets/Resources/Scripts/Utility/PathFinding.cs:106-124 | The reconstructed path starts with the start polygon and is a corridor of distinct adjacent polygons. It is exactly the start polygon when the destination has no predecessor, and otherwise it ends at the destination polygon. |
| NavMeshSearch.WalkStep | Assets/Resources/Scripts/Utility/PathFinding.cs:110-118 | One step back along the predecessors keeps the walked part equal to the tail of the destination's chain, and strictly lowers the termination measure. |
| NavMeshSearch.ReconstructPath | Assets/Resources/Scripts/Utility/PathFinding.cs:107-127 | The walk, the appended start polygon and the reversal together give exactly the corridor `PolygonPath`. |
| NavMeshSearch.ShortestPathPolygons | Assets/Resources/Scripts/Utility/PathFinding.cs:40-128 | The result is `null` exactly when the start point resolves to no polygon, which is only for an empty mesh. Otherwise the path starts at the start point's polygon and is a corridor. It ends at the destination point's polygon exactly when that polygon can be reached through adjacent polygons. Otherwise it is the start polygon alone. When both points lie in the same polygon, it is exactly that polygon. |
| PriorityQueue.PopMin | Assets/Resources/Scripts/Utility/PathFinding.cs:71 | `Pop()` returns an entry of least key and leaves the remaining multiset of entries. |
| PathFinding.PathLengthNonNegative | Assets/Resources/Scripts/Utility/PathFinding.cs:28-35 | With a non-negative distance, a polyline's length is never negative. |
| PathFinding.TotalDistance | Assets/Resources/Scripts/Utility/PathFinding.cs:28-35 | The summing loop computes the reference polyline length: the sum of the distances between consecutive points. It is 0 for at most one point and non-negative for a non-negative distance. |
| PathFinding.Gates | Assets/Resources/Scripts/Utility/PathFinding.cs:241-243 | There is one gate per consecutive pair of path polygons: the diagonal the first shares with the second. |
| PathFinding.Portals | Assets/Resources/Scripts/Utility/PathFinding.cs:232-247 | Both portal arrays have one more entry than the polygon path. They start with the start point, end with the destination point, and in between hold the left and right ends of each shared diagonal. |
| PathFinding.PathBySSFA | Assets/Resources/Scripts/Utility/PathFinding.cs:230-411 | The funnel output always ends with the destination point. The start point is not prepended. For a one-polygon path the output is exactly the destination point. |
| PathFinding.ShortestPath | Assets/Resources/Scripts/Utility/PathFinding.cs:13-22 | The result is `null` exactly for an empty mesh. Otherwise it is the funnel's output over a polygon path that starts at the start point's polygon, is a corridor, and ends at the destination point's polygon exactly when that polygon is reachable. The point path ends at the destination point. It is exactly the destination point when both points lie in the same polygon, or when the destination polygon cannot be reached. |
| PathFinding.ShortestPathDistance | Assets/Resources/Scripts/Utility/PathFinding.cs:24-36 | The result is the length of the funnel's point path over that same kind of polygon path. It is non-negative, and 0 when both points resolve to the same polygon or the destination polygon cannot be reached. |
| PathFinding.KeyByValue | Assets/Resources/Scripts/Utility/PathFinding.cs:508-521 | The result is the key of the first pair whose value equals the given one, or `default` when no pair matches. |
| RoadMapPathFinding.InitialWayPointNodes | Assets/Resources/Scripts/Utility/PathFinding.cs:425-434 | After the reset every way point has no parent, and all but the start have g = h = infinity. The start has g = 0 and h = its distance to the goal way point. |
| RoadMapPathFinding.WayPointCost | Assets/Resources/Scripts/Utility/PathFinding.cs:158-168 | The way-point cost is the previous way point's g plus the distance between the two way points' positions, so it is never below that g when distances are non-negative. |
| RoadMapPathFinding.RelaxWayPoint | Assets/Resources/Scripts/Utility/PathFinding.cs:442-456 | A connection is replaced exactly on a strict improvement. Its h is measured from the current way point, as written. Nothing else changes. |
| RoadMapPathFinding.RelaxConnections | Assets/Resources/Scripts/Utility/PathFinding.cs:440-457 | Closed way points and non-connections keep their nodes. Every unclosed connection is reached, and the entries appended to the queue are exactly the unclosed connections. Unless the expanded way point is one of its own unclosed connections, each unclosed connection holds its relaxation from the expanded way point, and the appended entries follow connection order keyed by the stored g + h. The unclosed-entry count is unchanged. |
| RoadMapPathFinding.ExpandWayPoint | Assets/Resources/Scripts/Utility/PathFinding.cs:436-461 | One iteration pops an entry of least key and relaxes the popped way point's connections as above. Closing it keeps the loop state, and the termination measure strictly drops. |
| RoadMapPathFinding.SearchLoop | Assets/Resources/Scripts/Utility/PathFinding.cs:436-464 | The loop terminates. `closed` is exactly the set of expanded way points. It stops right after the first expansion of the goal way point. Otherwise the queue drained, and every way point that was queued at the start or updated by the search has been expanded. Every connection of an expanded way point is reached. On an empty open list nothing changes. |
| RoadMapPathFinding.ParentTrail | Assets/Resources/Scripts/Utility/PathFinding.cs:468-477 | A way point without a parent contributes nothing to the walk. |
| RoadMapPathFinding.RoadMapShortestPath | Assets/Resources/Scripts/Utility/PathFinding.cs:418-490 | The open list is never seeded, so the result is exactly the phantom's position followed by the start way point's position. |
| RoadMapPathFinding.RoadMapShortestPathDistance | Assets/Resources/Scripts/Utility/PathFinding.cs:493-505 | The road-map distance is exactly the distance from the phantom's position to the start way point. |
| Geometry.Midpoint | Assets/Resources/Scripts/NPCs/NPCBehaviors/Guards/Searcher.cs:251 | `(a + b) / 2` is the point whose double is `a + b`. |
| Searcher.CheckSeenSs | Assets/Resources/Scripts/NPCs/NPCBehaviors/Guards/Searcher.cs:154-161 | The seen checks of all guards leave the line's connections unchanged. |
| Searcher.SimpleLineUpdate | Assets/Resources/Scripts/NPCs/NPCBehaviors/Guards/Searcher.cs:76-80 | The simple model's per-line steps leave the line's connections unchanged. |
| Searcher.OccupancyLineUpdate | Assets/Resources/Scripts/NPCs/NPCBehaviors/Guards/Searcher.cs:98-101 | The diffusion model's per-line steps leave the line's connections unchanged. The diffusion step is the corrected one (see Findings). |
| Searcher.LineUpdate | Assets/Resources/Scripts/NPCs/NPCBehaviors/Guards/Searcher.cs:76-80 | The per-line step of a tick is the simple model's step for `RmPropSimple` and the diffusion model's step otherwise, and it leaves the line's connections unchanged. |
| Searcher.Sweep | Assets/Resources/Scripts/NPCs/NPCBehaviors/Guards/Searcher.cs:72-85 | The tick's loop leaves line connections unchanged. The tracked maximum starts at 0. It ends at least as large as every line's new probability, and equals 0 or one of those probabilities. |
| Searcher.SweepUpdatesInPlace | Assets/Resources/Scripts/NPCs/NPCBehaviors/Guards/Searcher.cs:74-80 | The lines are updated in place and in order. Line j becomes the per-line update of the road map in which lines before j already hold their new values and the rest still hold their old ones. |
| Searcher.NormalizeProbs | Assets/Resources/Scripts/NPCs/NPCBehaviors/Guards/Searcher.cs:166-180 | Only the probabilities change. With a zero maximum each becomes exactly 1. Otherwise each new probability times the maximum gives back the old one. |
| Searcher.NormalizeBounds | Assets/Resources/Scripts/NPCs/NPCBehaviors/Guards/Searcher.cs:166-180 | Suppose the maximum is positive and bounds non-negative probabilities. Then normalising puts them in [0, 1], and the segments at the maximum become exactly 1. |
| Searcher.NormalizedFieldPeaksAtOne | Assets/Resources/Scripts/NPCs/NPCBehaviors/Guards/Searcher.cs:166-180 | Suppose the maximum bounds the field and is 0 or reached. Then after normalising no probability exceeds 1 and some probability is exactly 1. |
| Searcher.UpdateSimpleSearch | Assets/Resources/Scripts/NPCs/NPCBehaviors/Guards/Searcher.cs:70-89 | If some line's new probability reaches 0.4, the swept field is kept without normalising. If every line stays below 0.4, the field is normalised by the tick maximum. The road-map connections are unchanged. |
| Searcher.SimpleTickReachesThreshold | Assets/Resources/Scripts/NPCs/NPCBehaviors/Guards/Searcher.cs:72-88 | After a simple tick on a non-empty road map some segment is at least at 0.4: either the tick maximum already was, or normalisation below 0.4 lifted a segment to 1. |
| Searcher.UpdateOccupancySearch | Assets/Resources/Scripts/NPCs/NPCBehaviors/Guards/Searcher.cs:92-110 | A diffusion tick is the in-place diffusion sweep, always normalised by its own tick maximum, whatever that maximum is. The road-map connections are unchanged. |
| Searcher.OccupancyTickPeaksAtOne | Assets/Resources/Scripts/NPCs/NPCBehaviors/Guards/Searcher.cs:94-109 | After a diffusion tick on a non-empty road map, which always normalises, the field's maximum is exactly 1. |
| Searcher.UpdateSearcher | Assets/Resources/Scripts/NPCs/NPCBehaviors/Guards/Searcher.cs:58-66 | The dispatch on the planner. A diffusion tick peaks at 1, a simple tick reaches the threshold, and any other planner leaves the field untouched. |
| Searcher.NeighbourCountExcludesSelf | Assets/Resources/Scripts/NPCs/NPCBehaviors/Guards/Searcher.cs:118-140 | The neighbour count is the number of connections minus the occurrences of the line itself. Every other connection is counted once per occurrence. |
| Searcher.RawNeighbourSumBounds | Assets/Resources/Scripts/NPCs/NPCBehaviors/Guards/Searcher.cs:120-140 | If every neighbour other than the line itself lies in [lo, hi], the probability sum lies between lo and hi times the neighbour count. |
| Searcher.NeighbourhoodMeanBounds | Assets/Resources/Scripts/NPCs/NPCBehaviors/Guards/Searcher.cs:117-140 | Over the connections of both way points, the mean neighbour probability lies in [lo, hi] when every neighbour does. |
| Searcher.DiffuseProbAsWritten | Assets/Resources/Scripts/NPCs/NPCBehaviors/Guards/Searcher.cs:114-151 | The diffusion formula as written has no value (the float `0f / 0`, NaN) exactly when the line has no neighbour other than itself. |
| Searcher.DiffuseProb | Assets/Resources/Scripts/NPCs/NPCBehaviors/Guards/Searcher.cs:114-151 | The corrected diffusion agrees with the formula whenever the formula has a value. A line without neighbours keeps its probability. |
| Searcher.DiffusionIsConvex | Assets/Resources/Scripts/NPCs/NPCBehaviors/Guards/Searcher.cs:146-147 | With a factor in [0, 1], diffusion is a convex combination. If the line and all its neighbours lie in [lo, hi], so does the new probability. |
| Searcher.DiffusionFixedPoint | Assets/Resources/Scripts/NPCs/NPCBehaviors/Guards/Searcher.cs:146-147 | A line whose neighbours all share its probability keeps that probability, whatever the diffusion factor. |
| Searcher.IsolatedLineDiffusesToNaN | Assets/Resources/Scripts/NPCs/NPCBehaviors/Guards/Searcher.cs:146-147 | Take a line whose only connection is itself. As written it diffuses to `0 / 0`, while the corrected update keeps its probability. |
| Searcher.MinGoalScan | Assets/Resources/Scripts/NPCs/NPCBehaviors/Guards/Searcher.cs:209-222 | The running minimum over busy guards is at most every busy guard's goal distance. It is the starting value or one of those distances. |
| Searcher.MinGoalDistance | Assets/Resources/Scripts/NPCs/NPCBehaviors/Guards/Searcher.cs:207-224 | The result is 0 when no guard is busy. Otherwise it is the least path distance to a busy guard's goal, with the requesting guard not excluded. |
| Searcher.Fitness | Assets/Resources/Scripts/NPCs/NPCBehaviors/Guards/Searcher.cs:232-238 | Fitness is the weighted sum of four normalised terms: the line behaviour's fitness, the age over `MaxAge`, the distance to the nearest busy guard's goal over `MaxPathDistance`, and the requester's own path distance over `MaxPathDistance`. Each unit weight selects exactly its own term. What the resulting order means is stated by the two lemmas below. |
| Searcher.OlderSegmentIsFitter | Assets/Resources/Scripts/NPCs/NPCBehaviors/Guards/Searcher.cs:232-238 | The age term rewards age. Take two segments that differ only in age. With a positive age weight and a positive `MaxAge`, the older one is strictly fitter, and only then is one fitter than the other. |
| Searcher.FartherFromGoalsIsFitter | Assets/Resources/Scripts/NPCs/NPCBehaviors/Guards/Searcher.cs:207-238 | The goal-distance term spreads the guards out. Take two segments that differ only in their midpoint. With a positive weight, the one farther from the nearest busy guard's goal is strictly fitter, and only then is one fitter than the other. |
| Searcher.NeverPicksYounger | Assets/Resources/Scripts/NPCs/NPCBehaviors/Guards/Searcher.cs:232-246 | With a positive age weight, the selection never picks a candidate when another candidate is identical except for being older. |
| Searcher.BestScan | Assets/Resources/Scripts/NPCs/NPCBehaviors/Guards/Searcher.cs:192-246 | The fitness scan ends with the best candidate of maximal fitness and strictly fitter than every earlier candidate. Only segments above the threshold are candidates, and a later candidate replaces the choice only when strictly fitter. |
| Searcher.BestSegment | Assets/Resources/Scripts/NPCs/NPCBehaviors/Guards/Searcher.cs:192-246 | There is no best segment exactly when no segment is above 0.4. Otherwise the best is a candidate of maximal fitness, and the first one among ties, because the comparison is a strict `<`. |
| Searcher.GetSearchSegment | Assets/Resources/Scripts/NPCs/NPCBehaviors/Guards/Searcher.cs:184-252 | The call fails exactly when some segment is above 0.4 while a busy guard has no goal. It returns `null` exactly when no segment is above 0.4. Otherwise it returns the midpoint of a candidate of maximal fitness. |
| Searcher.TargetExistsAfterOccupancyTick | Assets/Resources/Scripts/NPCs/NPCBehaviors/Guards/Searcher.cs:201-203 | After a diffusion tick on a non-empty road map a search target always exists. |
| Searcher.SingleSegmentIsTarget | Assets/Resources/Scripts/NPCs/NPCBehaviors/Guards/Searcher.cs:248-251 | With one segment above the threshold, the target is that segment's midpoint. |
| VisMeshGuard.ScanStep | Assets/Resources/Scripts/NPCs/NPC/VisMeshGuard.cs:48-61 | One scan step over a polygon obeys these rules. The first polygon is always taken, and the maximum never decreases. A strictly less stale polygon is never taken. One staler by 1 or more always is. One within 1 is taken exactly when it is not strictly farther than the current choice, so the later polygon wins a distance tie. |
| VisMeshGuard.ScanStepKeeps | Assets/Resources/Scripts/NPCs/NPC/VisMeshGuard.cs:46-63 | After each step, the maximum is the staleness of an already scanned polygon, and no scanned polygon reaches the maximum plus 1. |
| VisMeshGuard.ScanFrom | Assets/Resources/Scripts/NPCs/NPC/VisMeshGuard.cs:46-63 | The scan over the remaining polygons never lowers the maximum. It ends either in the state it started from or holding a later polygon together with that polygon's staleness as the maximum. |
| VisMeshGuard.InitialScan | Assets/Resources/Scripts/NPCs/NPC/VisMeshGuard.cs:41-44 | The scan starts at negative infinity. Its provisional choice is the first polygon that contains the guard's position, or `null` exactly when none does. |
| VisMeshGuard.GetStalestPolygon | Assets/Resources/Scripts/NPCs/NPC/VisMeshGuard.cs:37-66 | The result is `null` exactly for an empty mesh. Otherwise it is a polygon of the mesh, and every polygon's staleness is below the chosen one's plus 1. |
| VisMeshGuard.StalestByOneIsChosen | Assets/Resources/Scripts/NPCs/NPC/VisMeshGuard.cs:48-63 | A polygon staler by at least 1 than every other is the one chosen, whatever the distances. |
| VisMeshGuard.EqualStalenessPicksNearest | Assets/Resources/Scripts/NPCs/NPC/VisMeshGuard.cs:50-61 | When all polygons are equally stale, the chosen one is nearest the guard and strictly nearer than every later polygon, so it is the last of the nearest. |
| VisMeshGuard.GetPatrolGoal | Assets/Resources/Scripts/NPCs/NPC/VisMeshGuard.cs:18-34 | `Stalest` gives the centroid of a polygon no polygon outstales by 1 or more, and fails on an empty mesh. `UserInput` gives the input point. `Random` gives no goal. |

The model follows the code in these respects:

- The goal-distance term of the search-target fitness includes the requesting
  guard's own goal when that guard is busy.
- The funnel output does not start with the start point; only the destination
  point is appended.
- A destination in another component of the navmesh does not give "no path".
  The destination polygon then has no predecessor, so the polygon path is just
  the start polygon, the point path is just the destination point, and the path
  distance is 0.
- As written, the diffusion of a line with no neighbours divides 0 by 0. The
  model records this as a finding, and its ticks use the corrected diffusion.
- The fitness of a segment starts from the segment's own fitness value, not
  from its probability.

## Left out

- The funnel loop body (`GetPathBySSFA` lines 255-406). It relies on float
  trigonometry (`Atan2`, `Cos`, `Sin`) and on a loop restart whose termination
  is not evident. Its output corners are the uninterpreted `funnelCorners` of
  the portal arrays.
- The implementations of `MeshPolygon`, `VisibilityPolygon`, `RoadMapLine`,
  `SearchSegment` and the external priority queue are not part of this model.
  Their results are function parameters:
  - `IsPointInPolygon`, `GetClosestIntersectionPoint`, the diagonal accessors
  - `Vector2.Distance`
  - `PropagateProb`, `IncreaseProbability`, `ExpandSs`, `CheckSeenSegment`
  - `GetFitness`, `GetMidPoint`
- Searcher.OccupancyLineUpdate: the diffusion tick uses the corrected
  `DiffuseProb`, so a line with no neighbours keeps its probability. As written
  it becomes NaN, and NaN survives normalisation unless the tick maximum is 0, when every
  probability is set to 1. `UpdateOccupancySearch`,
  `OccupancyTickPeaksAtOne`, `TargetExistsAfterOccupancyTick` and
  `UpdateSearcher` describe the corrected tick. The as-written value is
  `DiffuseProbAsWritten`.
- Searcher.LineUpdate: each line update is assumed to change only that line's
  own search segment. The line code is not part of this model.
- Entry points are not reset by the source between searches. The model starts
  every entry point empty and proves that the search only reads entry points it
  set itself.
- The priority queue's order among equal keys is not modelled: `Pop()` may
  return any entry of least key.
- RoadMapPathFinding.RelaxConnections: the exact per-connection relaxation and
  the exact queue keys are stated only when the expanded way point does not meet
  itself as an unclosed connection. Otherwise it would relax its own node in the
  middle of the loop and change the cost later connections see. In that case only
  the frame and the queued items are stated.
- RoadMapPathFinding.ParentTrail: the parent walk takes a step bound (the number
  of way points). Since the road-map search never runs, no parent is ever set
  and the bound is never reached.
- `GetHeuristicValue` for polygons is unused by the source and not modelled. The
  way-point version is the distance expression inside `RelaxWayPoint`.
- Searcher.GetSearchSegment: the path distance from a segment to a point is the
  parameter `pathDistance` rather than a call into the navmesh search. The A*
  result depends on the priority queue's tie order, which is not modelled. The
  failure of that call on an empty mesh is left out too.
- Searcher.GetSearchSegment: requires `MaxAge` and `MaxPathDistance` to be
  nonzero. These are configuration constants. A zero would make the float
  fitness infinite or NaN, which exact reals do not represent.
- The running `maxProbability` of `GetSearchSegment` is computed but never used
  by the source, and is not modelled.
- Searcher.NeighbourhoodSum: the source multiplies each neighbour's probability
  by `ProbDiffFac` before summing. The model multiplies the sum once, which is
  equal over the reals. The neighbour count is a real because it is used only as
  a divisor.
- Float rounding, NaN propagation beyond the one finding, and the single
  precision of all quantities are not modelled.
- Timing (`Time.realtimeSinceStartup`, `Updated`), gizmo drawing, rendering
  flags and `GetInputPoint` (mouse input) are left out. The clicked point is the
  `inputPoint` parameter of `GetPatrolGoal`.
- An empty navmesh makes `GetShortestPath` dereference a `null` polygon path.
  The model returns `None` instead of raising.

## Findings

| source | as written | input that shows it | evidently intended | confidence | as-written member | corrected member |
|---|---|---|---|---|---|---|
| Assets/Resources/Scripts/NPCs/NPCBehaviors/Guards/Searcher.cs:146-147 | `probabilitySum / neighborsCount` with no check for a count of 0, which gives the float `0f / 0`, i.e. NaN | a road-map line whose only connection is itself, at one way point, with none at the other | a line without neighbours keeps its probability | not executed | Searcher.IsolatedLineDiffusesToNaN | Searcher.DiffuseProb |

=== FILE: ext_real.dfy ===
/** Reals extended with the two single-precision infinities the source uses as
    sentinels (`Mathf.Infinity`, `Mathf.NegativeInfinity`). */
module ExtReals {

  datatype ExtReal = NegInf | Fin(v: real) | PosInf

  /** The strict order `a < b` of the extended reals. */
  predicate Less(a: ExtReal, b: ExtReal)
  {
    match a
    case NegInf => !b.NegInf?
    case Fin(x) => b.PosInf? || (b.Fin? && x < b.v)
    case PosInf => false
  }

  /** `a <= b`. */
  predicate LessEq(a: ExtReal, b: ExtReal)
  {
    !Less(b, a)
  }

  /** Addition of two values neither of which is negative infinity
      (costs and distances); an infinite summand gives infinity. */
  function Plus(a: ExtReal, b: ExtReal): (r: ExtReal)
    requires !a.NegInf? && !b.NegInf?
    ensures r.Fin? <==> a.Fin? && b.Fin?
    ensures r.Fin? ==> r.v == a.v + b.v
  {
    if a.Fin? && b.Fin? then Fin(a.v + b.v) else PosInf
  }
}

=== FILE: geometry.dfy ===
/** Points of the plane (`Vector2`) with exact real coordinates. */
module Geometry {

  datatype Point = Point(x: real, y: real)

  function Add(a: Point, b: Point): Point
  {
    Point(a.x + b.x, a.y + b.y)
  }

  function Scale(a: Point, k: real): Point
  {
    Point(a.x * k, a.y * k)
  }

  /** `(a + b) / 2f`. */
  function Midpoint(a: Point, b: Point): (m: Point)
    ensures Add(m, m) == Add(a, b)
  {
    Point((a.x + b.x) / 2.0, (a.y + b.y) / 2.0)
  }

  /** `Vector2.Distance` is not computed here (no square root over the reals):
      it is a parameter of every operation that needs it, of which only
      non-negativity is assumed. */
  type Distance = (Point, Point) -> real

  ghost predicate IsDistance(dist: Distance)
  {
    forall a, b :: dist(a, b) >= 0.0
  }
}

=== FILE: lists.dfy ===
/** Sequence helpers shared by the searches over lists. */
module Lists {
  import opened Wrappers

  /** The index of the first `i < n` satisfying `p`: the shape of every
      `foreach ... if (...) return` scan in the source. */
  function FirstIndex(n: nat, p: nat -> bool): (r: Option<nat>)
    ensures r.Some? ==> r.value < n && p(r.value) && forall j :: 0 <= j < r.value ==> !p(j)
    ensures r.None? <==> forall j :: 0 <= j < n ==> !p(j)
  {
    FirstIndexFrom(n, p, 0)
  }

  function FirstIndexFrom(n: nat, p: nat -> bool, i: nat): (r: Option<nat>)
    requires i <= n
    ensures r.Some? ==> i <= r.value < n && p(r.value) && forall j :: i <= j < r.value ==> !p(j)
    ensures r.None? <==> forall j :: i <= j < n ==> !p(j)
    decreases n - i
  {
    if i == n then None
    else if p(i) then Some(i)
    else FirstIndexFrom(n, p, i + 1)
  }

  function Reverse<T>(s: seq<T>): (r: seq<T>)
    ensures |r| == |s|
    ensures forall k :: 0 <= k < |s| ==> r[k] == s[|s| - 1 - k]
  {
    if s == [] then [] else Reverse(s[1..]) + [s[0]]
  }

  lemma ReverseSnoc<T>(s: seq<T>, x: T)
    ensures Reverse(s + [x]) == [x] + Reverse(s)
  {
    var l := Reverse(s + [x]);
    var r := [x] + Reverse(s);
    assert |l| == |r|;
    forall k | 0 <= k < |l|
      ensures l[k] == r[k]
    {
      if k > 0 {
        assert l[k] == (s + [x])[|s| - k];
      }
    }
  }
}

=== FILE: navmesh.dfy ===
/** The navigation mesh: convex polygons addressed by their index in the mesh
    list, and the point-to-polygon lookups of the path finder. */
module NavMesh {
  import opened Wrappers
  import opened ExtReals
  import opened Geometry
  import opened Lists

  /** A navmesh cell. Its shared-edge adjacency map is kept as the list of
      neighbour indices in the map's iteration order; edge ids play no role. */
  datatype MeshPolygon = MeshPolygon(neighbours: seq<nat>)

  /** The geometry the polygons compute in files that are not part of this
      model, left uninterpreted. Polygons are named by their mesh index.
      - `isPointInPolygon(i, p)`: `IsPointInPolygon(p, true)` of polygon i;
      - `closestIntersectionPoint(i, p)`: `GetClosestIntersectionPoint(p)`;
      - `diagonalMidPoint(i, j)`: `GetMidPointOfDiagonalNeighbor` of i towards j;
      - `diagonalLeft(i, j)`, `diagonalRight(i, j)`: the two out-parameters of
        `GetDiagonalOfNeighbor` of i towards j;
      - `funnelCorners(left, right)`: the offset apex points the funnel loop
        emits for the given portal arrays. */
  datatype MeshGeometry = MeshGeometry(
    distance: Distance,
    isPointInPolygon: (nat, Point) -> bool,
    closestIntersectionPoint: (nat, Point) -> Point,
    diagonalMidPoint: (nat, nat) -> Point,
    diagonalLeft: (nat, nat) -> Point,
    diagonalRight: (nat, nat) -> Point,
    funnelCorners: (seq<Point>, seq<Point>) -> seq<Point>)

  ghost predicate ValidGeometry(geom: MeshGeometry)
  {
    IsDistance(geom.distance)
  }

  /** Every neighbour reference points into the mesh, and no polygon shares
      an edge with itself. */
  predicate WellFormed(mesh: seq<MeshPolygon>)
  {
    forall i, k :: 0 <= i < |mesh| && 0 <= k < |mesh[i].neighbours| ==>
      mesh[i].neighbours[k] < |mesh| && mesh[i].neighbours[k] != i
  }

  predicate Contains(geom: MeshGeometry, i: nat, point: Point)
  {
    geom.isPointInPolygon(i, point)
  }

  /** Distance from `point` to polygon i's closest intersection point. */
  function ClosestDistance(geom: MeshGeometry, i: nat, point: Point): real
  {
    geom.distance(geom.closestIntersectionPoint(i, point), point)
  }

  /** `GetCorrespondingPolygon(List<MeshPolygon>, Vector2)`: the first polygon
      in list order that contains the point; failing that, the polygon of
      least closest-intersection distance, the earliest one on ties. */
  function CorrespondingPolygon(mesh: seq<MeshPolygon>, geom: MeshGeometry, point: Point): (r: Option<nat>)
    ensures r.Some? <==> |mesh| > 0
    ensures r.Some? ==> r.value < |mesh|
    ensures (exists i :: 0 <= i < |mesh| && Contains(geom, i, point)) ==>
      && Contains(geom, r.value, point)
      && forall j :: 0 <= j < r.value ==> !Contains(geom, j, point)
    ensures (forall i :: 0 <= i < |mesh| ==> !Contains(geom, i, point)) && r.Some? ==>
      && (forall j :: 0 <= j < |mesh| ==> ClosestDistance(geom, r.value, point) <= ClosestDistance(geom, j, point))
      && (forall j :: 0 <= j < r.value ==> ClosestDistance(geom, r.value, point) < ClosestDistance(geom, j, point))
  {
    var inside := (i: nat) => Contains(geom, i, point);
    assert forall j: nat :: inside(j) == Contains(geom, j, point);
    match FirstIndex(|mesh|, inside)
    case Some(i) => Some(i)
    case None => ClosestPolygon(|mesh|, geom, point, 0, PosInf, None)
  }

  /** The `minDistance` / `closestPolygon` scan, from index `i` on. */
  function ClosestPolygon(n: nat, geom: MeshGeometry, point: Point, i: nat, minDistance: ExtReal, closest: Option<nat>)
    : (r: Option<nat>)
    requires i <= n
    requires i == 0 ==> minDistance == PosInf && closest == None
    requires i > 0 ==> ScanSoFar(geom, point, i, minDistance, closest)
    ensures r.Some? <==> n > 0
    ensures n > 0 ==> ScanSoFar(geom, point, n, Fin(ClosestDistance(geom, r.value, point)), r)
    decreases n - i
  {
    if i == n then closest
    else
      var d := ClosestDistance(geom, i, point);
      if Less(Fin(d), minDistance) then ClosestPolygon(n, geom, point, i + 1, Fin(d), Some(i))
      else ClosestPolygon(n, geom, point, i + 1, minDistance, closest)
  }

  /** After scanning polygons `0 .. i-1`: `closest` is a polygon of least
      distance among them, strictly nearer than every earlier one. */
  predicate ScanSoFar(geom: MeshGeometry, point: Point, i: nat, minDistance: ExtReal, closest: Option<nat>)
  {
    && closest.Some?
    && closest.value < i
    && minDistance == Fin(ClosestDistance(geom, closest.value, point))
    && (forall j :: 0 <= j < i ==> minDistance.v <= ClosestDistance(geom, j, point))
    && (forall j :: 0 <= j < closest.value ==> minDistance.v < ClosestDistance(geom, j, point))
  }

  /** `GetCorrespondingPolygon(List<VisibilityPolygon>, Vector2)`: the first
      of the `n` visibility polygons containing the point, or `null`. */
  function VisibilityPolygonAt(n: nat, contains: (nat, Point) -> bool, point: Point): (r: Option<nat>)
    ensures r.Some? ==> r.value < n && contains(r.value, point)
    ensures r.Some? ==> forall j :: 0 <= j < r.value ==> !contains(j, point)
    ensures r.None? <==> forall j :: 0 <= j < n ==> !contains(j, point)
  {
    var inside := (i: nat) => contains(i, point);
    assert forall j: nat :: inside(j) == contains(j, point);
    FirstIndex(n, inside)
  }
}

=== FILE: navmesh_search.dfy ===
/** A* over the navmesh polygon adjacency with entry-point-chained costs
    (`GetShortestPathPolygons` and the polygon `GetCostValue`). The per-polygon
    search fields live in a search context indexed like the mesh. */
module NavMeshSearch {
  import opened Wrappers
  import opened ExtReals
  import opened Geometry
  import opened Lists
  import opened PriorityQueue
  import opened NavMesh

  /** The transient fields `gDistance`, `hDistance`, `previousPolygon` and
      `entryPoint` of one polygon. */
  datatype SearchNode = SearchNode(g: ExtReal, h: ExtReal, previous: Option<nat>, entry: Option<Point>)

  const Unvisited: SearchNode := SearchNode(PosInf, PosInf, None, None)

  /** The fields after the reset loop and the seeding of the start polygon. */
  function InitialNodes(n: nat, startPolygon: nat, start: Point, destination: Point, dist: Distance)
    : (nodes: seq<SearchNode>)
    requires startPolygon < n
    ensures |nodes| == n
    ensures forall i :: 0 <= i < n && i != startPolygon ==> nodes[i] == Unvisited
    ensures nodes[startPolygon] == SearchNode(Fin(0.0), Fin(dist(start, destination)), None, Some(start))
  {
    seq(n, i => Unvisited)[startPolygon := SearchNode(Fin(0.0), Fin(dist(start, destination)), None, Some(start))]
  }

  /** The point the move from `current` into `p` aims at: the destination point
      itself when `p` is the destination polygon, otherwise the midpoint of the
      diagonal as `p` reports it towards `current`. */
  function CostWaypoint(geom: MeshGeometry, current: nat, p: nat, destinationPolygon: nat, destination: Point): Point
  {
    if p == destinationPolygon then destination else geom.diagonalMidPoint(p, current)
  }

  /** `GetCostValue(MeshPolygon, ...)`: g of `current` plus the leg from
      `current`'s entry point to the waypoint. */
  function CostValue(geom: MeshGeometry, nodes: seq<SearchNode>, current: nat, p: nat, destinationPolygon: nat,
                     destination: Point): (g: real)
    requires current < |nodes| && nodes[current].g.Fin? && nodes[current].entry.Some?
    ensures ValidGeometry(geom) ==> g >= nodes[current].g.v
    ensures p == destinationPolygon ==>
      g - nodes[current].g.v == geom.distance(nodes[current].entry.value, destination)
    ensures p != destinationPolygon ==>
      g - nodes[current].g.v == geom.distance(nodes[current].entry.value, geom.diagonalMidPoint(p, current))
  {
    nodes[current].g.v + geom.distance(nodes[current].entry.value, CostWaypoint(geom, current, p, destinationPolygon, destination))
  }

  /** The h of a move from `current` to `p` (PathFinding.cs:84): the distance
      from their shared diagonal's midpoint, which becomes `p`'s entry point,
      to the destination point. The polygon `GetHeuristicValue` is not used. */
  function Heuristic(geom: MeshGeometry, current: nat, p: nat, destination: Point): real
  {
    geom.distance(geom.diagonalMidPoint(current, p), destination)
  }

  /** Every reached polygon's h is the distance from its entry point to the
      destination point. */
  ghost predicate HeuristicFromEntry(geom: MeshGeometry, nodes: seq<SearchNode>, destination: Point)
  {
    forall i :: 0 <= i < |nodes| && nodes[i].g.Fin? ==>
      nodes[i].entry.Some? && nodes[i].h == Fin(geom.distance(nodes[i].entry.value, destination))
  }

  /** The heuristic is measured from the point a polygon is entered at: the
      start point for the start polygon, and for a relaxed neighbour the
      midpoint of the diagonal it is entered through, which becomes its entry
      point. Seeding establishes this and relaxation keeps it. */
  lemma HeuristicMeasuresFromEntry(geom: MeshGeometry, n: nat, startPolygon: nat, start: Point,
                                   nodes: seq<SearchNode>, current: nat, p: nat,
                                   destinationPolygon: nat, destination: Point)
    requires startPolygon < n
    requires current < |nodes| && p < |nodes|
    requires nodes[current].g.Fin? && nodes[current].entry.Some?
    requires !nodes[p].g.NegInf? && !nodes[p].h.NegInf?
    ensures HeuristicFromEntry(geom, InitialNodes(n, startPolygon, start, destination, geom.distance), destination)
    ensures HeuristicFromEntry(geom, nodes, destination) ==>
      HeuristicFromEntry(geom, Relax(geom, nodes, current, p, destinationPolygon, destination), destination)
  {
  }

  /** The total `g + h` stored for a polygon. */
  function Total(node: SearchNode): ExtReal
    requires !node.g.NegInf? && !node.h.NegInf?
  {
    Plus(node.g, node.h)
  }

  /** One relaxation of neighbour `p` from `current`: its fields are replaced
      only when the stored total is strictly greater than the new one. */
  function Relax(geom: MeshGeometry, nodes: seq<SearchNode>, current: nat, p: nat, destinationPolygon: nat,
                 destination: Point): (r: seq<SearchNode>)
    requires current < |nodes| && p < |nodes|
    requires nodes[current].g.Fin? && nodes[current].entry.Some?
    requires !nodes[p].g.NegInf? && !nodes[p].h.NegInf?
    ensures |r| == |nodes|
    ensures forall j :: 0 <= j < |nodes| && j != p ==> r[j] == nodes[j]
    ensures
      var g := CostValue(geom, nodes, current, p, destinationPolygon, destination);
      var h := Heuristic(geom, current, p, destination);
      && (Less(Fin(g + h), Total(nodes[p])) ==>
            r[p] == SearchNode(Fin(g), Fin(h), Some(current), Some(geom.diagonalMidPoint(current, p))))
      && (!Less(Fin(g + h), Total(nodes[p])) ==> r[p] == nodes[p])
      && r[p].g.Fin? && r[p].h.Fin?
      && LessEq(Total(r[p]), Fin(g + h))
      && LessEq(Total(r[p]), Total(nodes[p]))
  {
    var g := CostValue(geom, nodes, current, p, destinationPolygon, destination);
    var h := Heuristic(geom, current, p, destination);
    if Less(Fin(g + h), Total(nodes[p])) then
      nodes[p := SearchNode(Fin(g), Fin(h), Some(current), Some(geom.diagonalMidPoint(current, p)))]
    else
      nodes
  }

  /** Relaxation never replaces a predecessor on an equal total. */
  lemma EqualTotalKeepsPredecessor(geom: MeshGeometry, nodes: seq<SearchNode>, current: nat, p: nat,
                                   destinationPolygon: nat, destination: Point)
    requires current < |nodes| && p < |nodes|
    requires nodes[current].g.Fin? && nodes[current].entry.Some?
    requires !nodes[p].g.NegInf? && !nodes[p].h.NegInf?
    requires Total(nodes[p]) == Fin(CostValue(geom, nodes, current, p, destinationPolygon, destination)
                                     + Heuristic(geom, current, p, destination))
    ensures Relax(geom, nodes, current, p, destinationPolygon, destination) == nodes
  {
  }

  ghost predicate NodeShape(node: SearchNode)
  {
    && !node.g.NegInf? && !node.h.NegInf?
    && (node.g.Fin? <==> node.h.Fin?)
    && (node.g.Fin? ==> node.entry.Some?)
    && (node.previous.Some? ==> node.g.Fin?)
  }

  /** Polygon i's predecessor q was expanded, has i as a neighbour, and, when i
      has been expanded too, was expanded first. */
  ghost predicate PredecessorOk(mesh: seq<MeshPolygon>, nodes: seq<SearchNode>, startPolygon: nat,
                                closed: set<nat>, rank: map<nat, nat>, i: nat)
  {
    && i < |nodes|
    && nodes[i].previous.Some?
    && var q := nodes[i].previous.value;
       && q in closed && q in rank && q < |mesh|
       && i in mesh[q].neighbours
       && i != startPolygon
       && (i in closed ==> i in rank && rank[q] < rank[i])
  }

  /** The search state the loop keeps: `closed` are the expanded polygons,
      `rank` the order in which each was first expanded (below `count`). */
  ghost predicate Consistent(mesh: seq<MeshPolygon>, nodes: seq<SearchNode>, startPolygon: nat,
                             closed: set<nat>, rank: map<nat, nat>, count: nat)
  {
    && WellFormed(mesh)
    && |nodes| == |mesh|
    && startPolygon < |mesh|
    && (forall x :: x in closed ==> x < |mesh| && nodes[x].g.Fin?)
    && rank.Keys == closed
    && (forall x :: x in rank ==> rank[x] < count)
    && (forall i :: 0 <= i < |nodes| ==> NodeShape(nodes[i]))
    && (forall i :: 0 <= i < |nodes| && nodes[i].previous.Some? ==>
          PredecessorOk(mesh, nodes, startPolygon, closed, rank, i))
    && (forall i :: 0 <= i < |nodes| && nodes[i].g.Fin? && i != startPolygon ==> nodes[i].previous.Some?)
    && nodes[startPolygon].g.Fin?
    && nodes[startPolygon].previous.None?
  }

  /** Every queued polygon has been reached in this search. */
  ghost predicate QueueOk(nodes: seq<SearchNode>, open: Queue)
  {
    forall k :: 0 <= k < |open| ==> open[k].item < |nodes| && nodes[open[k].item].g.Fin?
  }

  /** Ranks after expanding `current`: a polygon keeps the rank of its first expansion. */
  ghost function RankAfter(rank: map<nat, nat>, current: nat, count: nat): map<nat, nat>
  {
    if current in rank then rank else rank[current := count]
  }

  lemma InitialConsistent(mesh: seq<MeshPolygon>, startPolygon: nat, start: Point, destination: Point, dist: Distance)
    requires WellFormed(mesh) && startPolygon < |mesh|
    ensures Consistent(mesh, InitialNodes(|mesh|, startPolygon, start, destination, dist), startPolygon, {}, map[], 0)
  {
  }

  /** Expanding a reached polygon keeps the state consistent. */
  lemma ExpandKeepsConsistent(mesh: seq<MeshPolygon>, nodes: seq<SearchNode>, startPolygon: nat,
                              closed: set<nat>, rank: map<nat, nat>, count: nat, current: nat)
    requires Consistent(mesh, nodes, startPolygon, closed, rank, count)
    requires current < |mesh| && nodes[current].g.Fin?
    ensures Consistent(mesh, nodes, startPolygon, closed + {current}, RankAfter(rank, current, count), count + 1)
  {
    var closed', rank' := closed + {current}, RankAfter(rank, current, count);
    if current !in closed {
      assert rank' == rank[current := count];
      forall i | 0 <= i < |nodes| && nodes[i].previous.Some?
        ensures PredecessorOk(mesh, nodes, startPolygon, closed', rank', i)
      {
        assert PredecessorOk(mesh, nodes, startPolygon, closed, rank, i);
        var q := nodes[i].previous.value;
        assert q != current && rank'[q] == rank[q] < count;
        if i != current {
          assert i in closed' ==> i in closed && rank'[i] == rank[i];
        }
      }
    } else {
      assert closed' == closed && rank' == rank;
    }
  }

  /** Giving an unexpanded neighbour of an expanded polygon new finite costs,
      with that polygon as predecessor, keeps the state consistent. */
  lemma UpdateKeepsConsistent(mesh: seq<MeshPolygon>, nodes: seq<SearchNode>, startPolygon: nat,
                              closed: set<nat>, rank: map<nat, nat>, count: nat, current: nat, p: nat,
                              node: SearchNode)
    requires Consistent(mesh, nodes, startPolygon, closed, rank, count)
    requires current in closed && p < |nodes| && p in mesh[current].neighbours && p !in closed
    requires startPolygon in closed
    requires node.g.Fin? && node.h.Fin? && node.entry.Some? && node.previous == Some(current)
    ensures Consistent(mesh, nodes[p := node], startPolygon, closed, rank, count)
  {
    var r := nodes[p := node];
    assert p != startPolygon;
    forall i | 0 <= i < |r| && r[i].previous.Some?
      ensures PredecessorOk(mesh, r, startPolygon, closed, rank, i)
    {
      if i != p {
        assert PredecessorOk(mesh, nodes, startPolygon, closed, rank, i);
      }
    }
  }

  /** Relaxing an unexpanded neighbour of an expanded polygon keeps the state
      consistent, and every reached polygon stays reached. */
  lemma RelaxKeepsConsistent(mesh: seq<MeshPolygon>, geom: MeshGeometry, nodes: seq<SearchNode>, startPolygon: nat,
                             closed: set<nat>, rank: map<nat, nat>, count: nat, current: nat, p: nat,
                             destinationPolygon: nat, destination: Point)
    requires Consistent(mesh, nodes, startPolygon, closed, rank, count)
    requires current in closed && p in mesh[current].neighbours && p !in closed
    requires startPolygon in closed
    ensures p < |nodes| && nodes[current].g.Fin? && nodes[current].entry.Some?
    ensures
      var r := Relax(geom, nodes, current, p, destinationPolygon, destination);
      && Consistent(mesh, r, startPolygon, closed, rank, count)
      && forall i :: 0 <= i < |nodes| && nodes[i].g.Fin? ==> r[i].g.Fin?
  {
    assert NodeShape(nodes[current]);
    var k :| 0 <= k < |mesh[current].neighbours| && mesh[current].neighbours[k] == p;
    assert p < |nodes|;
    assert NodeShape(nodes[p]);
    var g := CostValue(geom, nodes, current, p, destinationPolygon, destination);
    var h := Heuristic(geom, current, p, destination);
    if Less(Fin(g + h), Total(nodes[p])) {
      UpdateKeepsConsistent(mesh, nodes, startPolygon, closed, rank, count, current, p,
                            SearchNode(Fin(g), Fin(h), Some(current), Some(geom.diagonalMidPoint(current, p))));
    }
  }

  /** The key a reached polygon is queued with: its stored `g + h`. */
  function Key(node: SearchNode): real
    requires node.g.Fin? && node.h.Fin?
  {
    node.g.v + node.h.v
  }

  /** The entries the neighbour loop appends for the neighbours `ps`: one per
      neighbour not in `closed`, in neighbour order, keyed by its stored total. */
  function Requeued(nodes: seq<SearchNode>, ps: seq<nat>, closed: set<nat>): (q: Queue)
    requires forall k :: 0 <= k < |ps| && ps[k] !in closed ==>
      ps[k] < |nodes| && nodes[ps[k]].g.Fin? && nodes[ps[k]].h.Fin?
    ensures forall k :: 0 <= k < |q| ==> q[k].item in ps && q[k].item !in closed
    ensures forall x :: x in ps && x !in closed ==> x in Items(q)
  {
    if ps == [] then []
    else
      var p := ps[|ps| - 1];
      var q := Requeued(nodes, ps[..|ps| - 1], closed);
      assert ps == ps[..|ps| - 1] + [p];
      if p in closed then q
      else
        ItemsConcat(q, [Entry(p, Key(nodes[p]))]);
        assert Items([Entry(p, Key(nodes[p]))])[0] == p;
        q + [Entry(p, Key(nodes[p]))]
  }

  lemma {:induction false} RequeuedFrame(nodes: seq<SearchNode>, nodes': seq<SearchNode>, ps: seq<nat>,
                                         closed: set<nat>)
    requires forall k :: 0 <= k < |ps| && ps[k] !in closed ==>
      ps[k] < |nodes| && ps[k] < |nodes'| && nodes[ps[k]] == nodes'[ps[k]]
      && nodes[ps[k]].g.Fin? && nodes[ps[k]].h.Fin?
    ensures Requeued(nodes, ps, closed) == Requeued(nodes', ps, closed)
  {
    if ps != [] {
      RequeuedFrame(nodes, nodes', ps[..|ps| - 1], closed);
    }
  }

  /** Relaxing `p` a second time from the same expanded polygon changes
      nothing more: the candidate total is the same, and the stored total is
      already at most it. */
  lemma RelaxAgain(geom: MeshGeometry, nodes: seq<SearchNode>, nodes1: seq<SearchNode>, current: nat, p: nat,
                   destinationPolygon: nat, destination: Point)
    requires current < |nodes| && p < |nodes| && p != current
    requires nodes[current].g.Fin? && nodes[current].entry.Some?
    requires !nodes[p].g.NegInf? && !nodes[p].h.NegInf?
    requires |nodes1| == |nodes| && nodes1[current] == nodes[current]
    requires nodes1[p] == nodes[p] || nodes1[p] == Relax(geom, nodes, current, p, destinationPolygon, destination)[p]
    ensures Relax(geom, nodes1, current, p, destinationPolygon, destination)[p]
         == Relax(geom, nodes, current, p, destinationPolygon, destination)[p]
  {
    var r := Relax(geom, nodes, current, p, destinationPolygon, destination);
    assert CostValue(geom, nodes1, current, p, destinationPolygon, destination)
        == CostValue(geom, nodes, current, p, destinationPolygon, destination);
  }

  lemma QueueOkAppend(nodes: seq<SearchNode>, r: seq<SearchNode>, open: Queue, e: Entry)
    requires QueueOk(nodes, open)
    requires |r| == |nodes| && forall i :: 0 <= i < |nodes| && nodes[i].g.Fin? ==> r[i].g.Fin?
    requires e.item < |r| && r[e.item].g.Fin?
    ensures QueueOk(r, open + [e])
  {
  }

  /** After the neighbour loop has visited the neighbours `ps`: the skipped
      and the unvisited polygons are as they were, each visited unclosed
      neighbour holds its relaxation from `current`, and the queue has the
      entries `Requeued` appended. */
  ghost predicate RelaxedUpTo(geom: MeshGeometry, nodes: seq<SearchNode>, open: Queue, closed: set<nat>, current: nat,
                              destinationPolygon: nat, destination: Point, ps: seq<nat>,
                              nodes': seq<SearchNode>, open': Queue)
  {
    && current < |nodes| && nodes[current].g.Fin? && nodes[current].entry.Some?
    && (forall i :: 0 <= i < |nodes| ==> !nodes[i].g.NegInf? && !nodes[i].h.NegInf?)
    && |nodes'| == |nodes|
    && (forall x :: 0 <= x < |nodes| && (x in closed || x !in ps) ==> nodes'[x] == nodes[x])
    && (forall x :: x in ps && x !in closed ==>
          && x < |nodes| && x != current
          && nodes'[x] == Relax(geom, nodes, current, x, destinationPolygon, destination)[x]
          && nodes'[x].g.Fin? && nodes'[x].h.Fin?)
    && open' == open + Requeued(nodes', ps, closed)
  }

  /** One iteration of the neighbour loop on an unclosed neighbour `p`. */
  lemma RelaxStep(geom: MeshGeometry, nodes: seq<SearchNode>, open: Queue, closed: set<nat>, current: nat,
                  destinationPolygon: nat, destination: Point, ns: seq<nat>, j: nat, nodes': seq<SearchNode>,
                  open': Queue)
    requires j < |ns|
    requires RelaxedUpTo(geom, nodes, open, closed, current, destinationPolygon, destination, ns[..j], nodes', open')
    requires ns[j] < |nodes| && ns[j] != current && ns[j] !in closed
    ensures
      var r := Relax(geom, nodes', current, ns[j], destinationPolygon, destination);
      RelaxedUpTo(geom, nodes, open, closed, current, destinationPolygon, destination, ns[..j + 1],
                  r, open' + [Entry(ns[j], Key(r[ns[j]]))])
  {
    var p, ps := ns[j], ns[..j];
    var r := Relax(geom, nodes', current, p, destinationPolygon, destination);
    RelaxAgain(geom, nodes, nodes', current, p, destinationPolygon, destination);
    assert ns[..j + 1] == ps + [p];
    forall x | 0 <= x < |nodes| && (x in closed || x !in ps + [p])
      ensures r[x] == nodes[x]
    {
      assert x != p;
    }
    forall x | x in ps + [p] && x !in closed
      ensures && x < |nodes| && x != current
              && r[x] == Relax(geom, nodes, current, x, destinationPolygon, destination)[x]
              && r[x].g.Fin? && r[x].h.Fin?
    {
      if x != p {
        assert x in ps;
      }
    }
    RequeuedFrame(nodes', r, ps, closed);
    assert (ps + [p])[..|ps|] == ps;
    assert Requeued(r, ps + [p], closed) == Requeued(r, ps, closed) + [Entry(p, Key(r[p]))];
  }

  /** One iteration of the neighbour loop on a closed neighbour `p`. */
  lemma SkipStep(geom: MeshGeometry, nodes: seq<SearchNode>, open: Queue, closed: set<nat>, current: nat,
                 destinationPolygon: nat, destination: Point, ns: seq<nat>, j: nat, nodes': seq<SearchNode>,
                 open': Queue)
    requires j < |ns|
    requires RelaxedUpTo(geom, nodes, open, closed, current, destinationPolygon, destination, ns[..j], nodes', open')
    requires ns[j] in closed
    ensures RelaxedUpTo(geom, nodes, open, closed, current, destinationPolygon, destination, ns[..j + 1], nodes', open')
  {
    var p, ps := ns[j], ns[..j];
    assert ns[..j + 1] == ps + [p];
    assert (ps + [p])[..|ps|] == ps;
  }

  /** One iteration of the inner `foreach`, on the neighbour `ns[j]` of `current`. */
  method RelaxNeighbour(mesh: seq<MeshPolygon>, geom: MeshGeometry, nodes: seq<SearchNode>, open: Queue,
                        closed: set<nat>, current: nat, destinationPolygon: nat, destination: Point,
                        ns: seq<nat>, j: nat, nodes': seq<SearchNode>, open': Queue,
                        ghost startPolygon: nat, ghost rank: map<nat, nat>, ghost count: nat)
    returns (nodes'': seq<SearchNode>, open'': Queue)
    requires current < |mesh| && ns == mesh[current].neighbours && j < |ns|
    requires Consistent(mesh, nodes', startPolygon, closed + {current}, rank, count)
    requires startPolygon in closed + {current}
    requires QueueOk(nodes', open')
    requires RelaxedUpTo(geom, nodes, open, closed, current, destinationPolygon, destination, ns[..j], nodes', open')
    ensures Consistent(mesh, nodes'', startPolygon, closed + {current}, rank, count)
    ensures QueueOk(nodes'', open'')
    ensures CountIn(open'', closed + {current}) == CountIn(open', closed + {current})
    ensures RelaxedUpTo(geom, nodes, open, closed, current, destinationPolygon, destination, ns[..j + 1],
                        nodes'', open'')
  {
    var p := ns[j];
    assert p < |mesh| && p != current;
    if p !in closed {
      RelaxKeepsConsistent(mesh, geom, nodes', startPolygon, closed + {current}, rank, count, current, p,
                           destinationPolygon, destination);
      RelaxStep(geom, nodes, open, closed, current, destinationPolygon, destination, ns, j, nodes', open');
      nodes'' := Relax(geom, nodes', current, p, destinationPolygon, destination);
      var e := Entry(p, Key(nodes''[p]));
      CountInConcat(open', [e], closed + {current});
      assert CountIn([e], closed + {current}) == 0 by {
        assert [e][..0] == [];
      }
      QueueOkAppend(nodes', nodes'', open', e);
      open'' := open' + [e];
    } else {
      SkipStep(geom, nodes, open, closed, current, destinationPolygon, destination, ns, j, nodes', open');
      nodes'', open'' := nodes', open';
    }
  }

  /** The expansion of `current` took `nodes` to `nodes'`: polygons closed
      before it, and polygons that are not its neighbours, are unchanged; every
      other neighbour holds its relaxation from `current` and is reached. */
  ghost predicate NeighboursRelaxed(mesh: seq<MeshPolygon>, geom: MeshGeometry, nodes: seq<SearchNode>,
                                    closed: set<nat>, current: nat, destinationPolygon: nat, destination: Point,
                                    nodes': seq<SearchNode>)
    requires current < |mesh|
  {
    && current < |nodes| && nodes[current].g.Fin? && nodes[current].entry.Some?
    && |nodes'| == |nodes|
    && (forall x :: 0 <= x < |nodes| && (x in closed || x !in mesh[current].neighbours) ==> nodes'[x] == nodes[x])
    && (forall x :: x in mesh[current].neighbours && x !in closed ==>
          && x < |nodes| && NodeShape(nodes[x])
          && nodes'[x] == Relax(geom, nodes, current, x, destinationPolygon, destination)[x]
          && nodes'[x].g.Fin? && nodes'[x].h.Fin?)
  }

  /** The inner `foreach` over the neighbours of the expanded polygon
      `current`. Polygons closed before this expansion are skipped and left as
      they were; every other neighbour is relaxed and queued again with its
      stored total, in neighbour order, whether or not it improved. */
  method RelaxNeighbours(mesh: seq<MeshPolygon>, geom: MeshGeometry, nodes: seq<SearchNode>, open: Queue,
                         closed: set<nat>, current: nat, destinationPolygon: nat, destination: Point,
                         ghost startPolygon: nat, ghost rank: map<nat, nat>, ghost count: nat)
    returns (nodes': seq<SearchNode>, open': Queue)
    requires Consistent(mesh, nodes, startPolygon, closed + {current}, rank, count)
    requires QueueOk(nodes, open)
    requires startPolygon in closed + {current}
    ensures Consistent(mesh, nodes', startPolygon, closed + {current}, rank, count)
    ensures QueueOk(nodes', open')
    ensures CountIn(open', closed + {current}) == CountIn(open, closed + {current})
    ensures NeighboursRelaxed(mesh, geom, nodes, closed, current, destinationPolygon, destination, nodes')
    ensures open' == open + Requeued(nodes', mesh[current].neighbours, closed)
  {
    nodes' := nodes;
    open' := open;
    var neighbours := mesh[current].neighbours;
    assert NodeShape(nodes[current]);
    assert forall i :: 0 <= i < |nodes| ==> NodeShape(nodes[i]);
    assert neighbours[..0] == [];
    var j := 0;
    while j < |neighbours|
      invariant 0 <= j <= |neighbours|
      invariant Consistent(mesh, nodes', startPolygon, closed + {current}, rank, count)
      invariant QueueOk(nodes', open')
      invariant CountIn(open', closed + {current}) == CountIn(open, closed + {current})
      invariant RelaxedUpTo(geom, nodes, open, closed, current, destinationPolygon, destination, neighbours[..j],
                            nodes', open')
    {
      nodes', open' := RelaxNeighbour(mesh, geom, nodes, open, closed, current, destinationPolygon, destination,
                                      neighbours, j, nodes', open', startPolygon, rank, count);
      j := j + 1;
    }
    assert neighbours[..j] == neighbours;
  }

  /** Every neighbour of an expanded polygon has been reached. */
  ghost predicate NeighboursReached(mesh: seq<MeshPolygon>, nodes: seq<SearchNode>, closed: set<nat>)
  {
    forall x, k :: x in closed && x < |mesh| && 0 <= k < |mesh[x].neighbours| ==>
      mesh[x].neighbours[k] < |nodes| && nodes[mesh[x].neighbours[k]].g.Fin?
  }

  /** Every reached polygon that is not expanded yet is waiting in the queue. */
  ghost predicate ReachedQueued(nodes: seq<SearchNode>, open: Queue, closed: set<nat>)
  {
    forall i :: 0 <= i < |nodes| && nodes[i].g.Fin? && i !in closed ==> i in Items(open)
  }

  /** Expanding `current` (popped from `open`, leaving `rest`) keeps every
      neighbour of an expanded polygon reached and every reached unexpanded
      polygon queued. */
  lemma ExpandKeepsReached(mesh: seq<MeshPolygon>, geom: MeshGeometry, nodes: seq<SearchNode>, open: Queue,
                           at: nat, closed: set<nat>, current: nat, destinationPolygon: nat, destination: Point,
                           nodes': seq<SearchNode>, open': Queue)
    requires WellFormed(mesh) && |nodes| == |mesh| && current < |mesh| && at < |open| && open[at].item == current
    requires forall x :: x in closed ==> x < |nodes| && nodes[x].g.Fin?
    requires NeighboursReached(mesh, nodes, closed) && ReachedQueued(nodes, open, closed)
    requires NeighboursRelaxed(mesh, geom, nodes, closed, current, destinationPolygon, destination, nodes')
    requires open' == RemoveAt(open, at) + Requeued(nodes', mesh[current].neighbours, closed)
    ensures NeighboursReached(mesh, nodes', closed + {current})
    ensures ReachedQueued(nodes', open', closed + {current})
  {
    var rest := RemoveAt(open, at);
    ItemsConcat(rest, Requeued(nodes', mesh[current].neighbours, closed));
    forall i | 0 <= i < |nodes'| && nodes'[i].g.Fin? && i !in closed + {current}
      ensures i in Items(open')
    {
      if !(i in mesh[current].neighbours && i !in closed) {
        ItemsRemoveAt(open, at, i);
      }
    }
    forall x, k | x in closed + {current} && x < |mesh| && 0 <= k < |mesh[x].neighbours|
      ensures mesh[x].neighbours[k] < |nodes'| && nodes'[mesh[x].neighbours[k]].g.Fin?
    {
      var y := mesh[x].neighbours[k];
      if x != current {
        assert nodes[y].g.Fin?;
        if y in mesh[current].neighbours && y !in closed {
        } else {
          assert nodes'[y] == nodes[y];
        }
      } else if y in closed {
        assert nodes'[y] == nodes[y];
      } else {
        assert y in mesh[current].neighbours;
      }
    }
  }

  /** What the A* loop keeps between iterations. */
  ghost predicate SearchState(mesh: seq<MeshPolygon>, nodes: seq<SearchNode>, open: Queue, startPolygon: nat,
                              closed: set<nat>, rank: map<nat, nat>, count: nat)
  {
    && Consistent(mesh, nodes, startPolygon, closed, rank, count)
    && QueueOk(nodes, open)
    && (startPolygon in closed || (closed == {} && forall k :: 0 <= k < |open| ==> open[k].item == startPolygon))
    && (startPolygon in closed || open != [])
    && NeighboursReached(mesh, nodes, closed)
    && ReachedQueued(nodes, open, closed)
  }

  /** One iteration of the A* loop: pop a polygon of least total, relax its
      neighbours, and close it. */
  method ExpandNext(mesh: seq<MeshPolygon>, geom: MeshGeometry, nodes: seq<SearchNode>, open: Queue,
                    closed: set<nat>, destinationPolygon: nat, destination: Point,
                    ghost startPolygon: nat, ghost rank: map<nat, nat>, ghost count: nat)
    returns (current: nat, nodes': seq<SearchNode>, open': Queue)
    requires open != [] && SearchState(mesh, nodes, open, startPolygon, closed, rank, count)
    ensures current < |mesh| && nodes[current].g.Fin?
    ensures NeighboursRelaxed(mesh, geom, nodes, closed, current, destinationPolygon, destination, nodes')
    ensures exists k :: IsMinAt(open, k) && open[k].item == current
                        && open' == RemoveAt(open, k) + Requeued(nodes', mesh[current].neighbours, closed)
    ensures SearchState(mesh, nodes', open', startPolygon, closed + {current}, RankAfter(rank, current, count),
                        count + 1)
    ensures Unclosed(|mesh|, closed + {current}) < Unclosed(|mesh|, closed)
         || (closed + {current} == closed && CountIn(open', closed) < CountIn(open, closed))
  {
    var e: Entry;
    var rest: Queue;
    ghost var at: nat;
    e, rest, at := PopMin(open);
    CountInRemoveAt(open, at, closed);
    current := e.item;
    assert current < |mesh| && nodes[current].g.Fin?;
    assert startPolygon in closed + {current};

    ExpandKeepsConsistent(mesh, nodes, startPolygon, closed, rank, count, current);
    nodes', open' := RelaxNeighbours(mesh, geom, nodes, rest, closed, current, destinationPolygon, destination,
                                     startPolygon, RankAfter(rank, current, count), count + 1);
    ExpandKeepsReached(mesh, geom, nodes, open, at, closed, current, destinationPolygon, destination,
                       nodes', open');
    CloseShrinksMeasure(|mesh|, closed, current, open', open);
    assert IsMinAt(open, at) && open[at].item == current
           && open' == RemoveAt(open, at) + Requeued(nodes', mesh[current].neighbours, closed);
  }

  /** The A* loop from `startPolygon` towards `destinationPolygon`. It ends
      either right after expanding the destination polygon (the last
      expansion) or with the queue drained, when every reached polygon has
      been expanded. Every neighbour of an expanded polygon has been reached,
      and predecessors were expanded before the polygons that point to them,
      so the predecessor relation is acyclic. */
  method Search(mesh: seq<MeshPolygon>, geom: MeshGeometry, startPolygon: nat, destinationPolygon: nat,
                start: Point, destination: Point)
    returns (nodes: seq<SearchNode>, closed: set<nat>, ghost rank: map<nat, nat>, ghost count: nat)
    requires WellFormed(mesh)
    requires startPolygon < |mesh| && destinationPolygon < |mesh|
    ensures Consistent(mesh, nodes, startPolygon, closed, rank, count)
    ensures startPolygon in closed
    ensures |nodes| == |mesh|
    ensures NeighboursReached(mesh, nodes, closed)
    ensures destinationPolygon in closed || forall i :: 0 <= i < |nodes| && nodes[i].g.Fin? ==> i in closed
    ensures destinationPolygon in closed ==> destinationPolygon in rank && rank[destinationPolygon] + 1 == count
  {
    nodes := InitialNodes(|mesh|, startPolygon, start, destination, geom.distance);
    var open: Queue := [Entry(startPolygon, Key(nodes[startPolygon]))];
    closed := {};
    rank := map[];
    count := 0;
    InitialConsistent(mesh, startPolygon, start, destination, geom.distance);
    assert Items(open)[0] == startPolygon;
    while open != []
      invariant SearchState(mesh, nodes, open, startPolygon, closed, rank, count)
      invariant destinationPolygon !in closed
      decreases Unclosed(|mesh|, closed), CountIn(open, closed)
    {
      var current;
      current, nodes, open := ExpandNext(mesh, geom, nodes, open, closed, destinationPolygon, destination,
                                         startPolygon, rank, count);
      closed := closed + {current};
      rank := RankAfter(rank, current, count);
      count := count + 1;

      // Stop once the destination polygon has been expanded.
      if current == destinationPolygon {
        break;
      }
    }
  }

  /** A walk through the mesh from `from` to `to`: polygons of the mesh, each
      adjacent to the next. */
  predicate IsWalk(mesh: seq<MeshPolygon>, walk: seq<nat>, from: nat, to: nat)
  {
    && |walk| > 0 && walk[0] == from && walk[|walk| - 1] == to
    && (forall k :: 0 <= k < |walk| ==> walk[k] < |mesh|)
    && (forall k :: 0 <= k < |walk| - 1 ==> walk[k + 1] in mesh[walk[k]].neighbours)
  }

  /** `to` can be reached from `from` through adjacent polygons. */
  ghost predicate Connected(mesh: seq<MeshPolygon>, from: nat, to: nat)
  {
    exists walk :: IsWalk(mesh, walk, from, to)
  }

  /** A set of polygons that holds `walk[0]` and the neighbours of each of its
      members holds the whole walk. */
  lemma {:induction false} WalkStaysClosed(mesh: seq<MeshPolygon>, nodes: seq<SearchNode>, closed: set<nat>,
                                           walk: seq<nat>, from: nat, to: nat, n: nat)
    requires IsWalk(mesh, walk, from, to) && n < |walk| && from in closed
    requires NeighboursReached(mesh, nodes, closed)
    requires forall i :: 0 <= i < |nodes| && nodes[i].g.Fin? ==> i in closed
    ensures walk[n] in closed
    decreases n
  {
    if n > 0 {
      WalkStaysClosed(mesh, nodes, closed, walk, from, to, n - 1);
      var x := walk[n - 1];
      assert x < |mesh| && walk[n] in mesh[x].neighbours;
      var k :| 0 <= k < |mesh[x].neighbours| && mesh[x].neighbours[k] == walk[n];
    }
  }

  /** When the destination polygon can be reached from the start polygon
      through adjacent polygons, the search reaches it and the polygon path
      ends there. */
  lemma DestinationReached(mesh: seq<MeshPolygon>, nodes: seq<SearchNode>, startPolygon: nat, closed: set<nat>,
                           rank: map<nat, nat>, count: nat, destinationPolygon: nat)
    requires Consistent(mesh, nodes, startPolygon, closed, rank, count)
    requires startPolygon in closed && destinationPolygon < |nodes|
    requires NeighboursReached(mesh, nodes, closed)
    requires destinationPolygon in closed || forall i :: 0 <= i < |nodes| && nodes[i].g.Fin? ==> i in closed
    requires Connected(mesh, startPolygon, destinationPolygon)
    ensures nodes[destinationPolygon].g.Fin?
    ensures var path := PolygonPath(mesh, nodes, startPolygon, closed, rank, count, destinationPolygon);
      path[|path| - 1] == destinationPolygon
  {
    if destinationPolygon !in closed {
      var walk :| IsWalk(mesh, walk, startPolygon, destinationPolygon);
      WalkStaysClosed(mesh, nodes, closed, walk, startPolygon, destinationPolygon, |walk| - 1);
    }
  }

  /** A well-founded measure on polygons: the rank of expanded polygons, and
      `count`, above every rank, for the others. Predecessors have a smaller one. */
  ghost function Measure(closed: set<nat>, rank: map<nat, nat>, count: nat, x: nat): nat
  {
    if x in closed && x in rank then rank[x] else count
  }

  /** The predecessor chain ending at `x`, first polygon first, not including
      the predecessor-less polygon it starts from. */
  function Chain(mesh: seq<MeshPolygon>, nodes: seq<SearchNode>, startPolygon: nat, closed: set<nat>,
                 ghost rank: map<nat, nat>, ghost count: nat, x: nat): seq<nat>
    requires Consistent(mesh, nodes, startPolygon, closed, rank, count) && x < |nodes|
    decreases Measure(closed, rank, count, x)
  {
    match nodes[x].previous
    case None => []
    case Some(q) =>
      assert PredecessorOk(mesh, nodes, startPolygon, closed, rank, x);
      Chain(mesh, nodes, startPolygon, closed, rank, count, q) + [x]
  }

  /** The chain ends at `x`, starts at a successor of the start polygon, links
      each polygon to its predecessor, and climbs strictly in `Measure`, so it
      never repeats a polygon. */
  lemma {:induction false} ChainFacts(mesh: seq<MeshPolygon>, nodes: seq<SearchNode>, startPolygon: nat,
                                      closed: set<nat>, rank: map<nat, nat>, count: nat, x: nat)
    requires Consistent(mesh, nodes, startPolygon, closed, rank, count) && x < |nodes|
    ensures var r := Chain(mesh, nodes, startPolygon, closed, rank, count, x);
      && (forall k :: 0 <= k < |r| ==> r[k] < |nodes| && r[k] != startPolygon)
      && (r == [] <==> nodes[x].previous.None?)
      && (r != [] ==> r[|r| - 1] == x && nodes[r[0]].previous == Some(startPolygon))
      && (forall k :: 0 <= k < |r| - 1 ==> nodes[r[k + 1]].previous == Some(r[k]))
      && (forall k :: 0 <= k < |r| ==>
            Measure(closed, rank, count, startPolygon) < Measure(closed, rank, count, r[k])
            <= Measure(closed, rank, count, x))
      && (forall k, l :: 0 <= k < l < |r| ==>
            Measure(closed, rank, count, r[k]) < Measure(closed, rank, count, r[l]))
    decreases Measure(closed, rank, count, x)
  {
    match nodes[x].previous
    case None =>
    case Some(q) =>
      assert PredecessorOk(mesh, nodes, startPolygon, closed, rank, x);
      ChainFacts(mesh, nodes, startPolygon, closed, rank, count, q);
      var c := Chain(mesh, nodes, startPolygon, closed, rank, count, q);
      if c == [] {
        assert q == startPolygon;
      }
  }

  /** The polygon path: the start polygon, then the chain to the destination. */
  function PolygonPath(mesh: seq<MeshPolygon>, nodes: seq<SearchNode>, startPolygon: nat, closed: set<nat>,
                       ghost rank: map<nat, nat>, ghost count: nat, destinationPolygon: nat): (path: seq<nat>)
    requires Consistent(mesh, nodes, startPolygon, closed, rank, count) && destinationPolygon < |nodes|
    ensures |path| >= 1 && path[0] == startPolygon
    ensures |path| == 1 <==> nodes[destinationPolygon].previous.None?
    ensures |path| > 1 ==> path[|path| - 1] == destinationPolygon
    ensures IsCorridor(mesh, path)
  {
    var c := Chain(mesh, nodes, startPolygon, closed, rank, count, destinationPolygon);
    ChainFacts(mesh, nodes, startPolygon, closed, rank, count, destinationPolygon);
    ChainIsCorridor(mesh, nodes, startPolygon, closed, rank, count, c);
    [startPolygon] + c
  }

  /** A predecessor chain from a successor of the start polygon, climbing
      strictly in `Measure`, is a corridor once the start polygon is put in
      front. */
  lemma ChainIsCorridor(mesh: seq<MeshPolygon>, nodes: seq<SearchNode>, startPolygon: nat, closed: set<nat>,
                        rank: map<nat, nat>, count: nat, c: seq<nat>)
    requires Consistent(mesh, nodes, startPolygon, closed, rank, count)
    requires forall k :: 0 <= k < |c| ==> c[k] < |nodes| && c[k] != startPolygon
    requires c != [] ==> nodes[c[0]].previous == Some(startPolygon)
    requires forall k :: 0 <= k < |c| - 1 ==> nodes[c[k + 1]].previous == Some(c[k])
    requires forall k :: 0 <= k < |c| ==> Measure(closed, rank, count, startPolygon) < Measure(closed, rank, count, c[k])
    requires forall k, l :: 0 <= k < l < |c| ==> Measure(closed, rank, count, c[k]) < Measure(closed, rank, count, c[l])
    ensures IsCorridor(mesh, [startPolygon] + c)
  {
    var path := [startPolygon] + c;
    forall k | 0 <= k < |path| - 1
      ensures path[k + 1] in mesh[path[k]].neighbours
    {
      assert path[k + 1] == c[k];
      assert PredecessorOk(mesh, nodes, startPolygon, closed, rank, c[k]);
    }
    forall k, l | 0 <= k < l < |path|
      ensures path[k] != path[l]
    {
      if k > 0 {
        assert Measure(closed, rank, count, c[k - 1]) < Measure(closed, rank, count, c[l - 1]);
      }
    }
  }

  /** A sequence of distinct mesh polygons, each adjacent to the next. */
  predicate IsCorridor(mesh: seq<MeshPolygon>, path: seq<nat>)
  {
    && (forall k :: 0 <= k < |path| ==> path[k] < |mesh|)
    && (forall k :: 0 <= k < |path| - 1 ==> path[k + 1] in mesh[path[k]].neighbours)
    && (forall k, l :: 0 <= k < l < |path| ==> path[k] != path[l])
  }

  lemma ChainStep(mesh: seq<MeshPolygon>, nodes: seq<SearchNode>, startPolygon: nat, closed: set<nat>,
                  rank: map<nat, nat>, count: nat, x: nat)
    requires Consistent(mesh, nodes, startPolygon, closed, rank, count) && x < |nodes|
    requires nodes[x].previous.Some?
    ensures nodes[x].previous.value < |nodes|
    ensures Chain(mesh, nodes, startPolygon, closed, rank, count, x)
         == Chain(mesh, nodes, startPolygon, closed, rank, count, nodes[x].previous.value) + [x]
  {
  }

  /** One step of the reconstruction walk keeps the walked part equal to the
      tail of the destination's chain. */
  lemma WalkStep(mesh: seq<MeshPolygon>, nodes: seq<SearchNode>, startPolygon: nat, closed: set<nat>,
                 rank: map<nat, nat>, count: nat, destinationPolygon: nat, x: nat, walked: seq<nat>)
    requires Consistent(mesh, nodes, startPolygon, closed, rank, count)
    requires destinationPolygon < |nodes| && x < |nodes| && nodes[x].previous.Some?
    requires Chain(mesh, nodes, startPolygon, closed, rank, count, destinationPolygon)
          == Chain(mesh, nodes, startPolygon, closed, rank, count, x) + Reverse(walked)
    ensures nodes[x].previous.value < |nodes|
    ensures Measure(closed, rank, count, nodes[x].previous.value) < Measure(closed, rank, count, x)
    ensures Chain(mesh, nodes, startPolygon, closed, rank, count, destinationPolygon)
         == Chain(mesh, nodes, startPolygon, closed, rank, count, nodes[x].previous.value) + Reverse(walked + [x])
  {
    PredecessorDescends(mesh, nodes, startPolygon, closed, rank, count, x);
    ChainStep(mesh, nodes, startPolygon, closed, rank, count, x);
    MoveToWalked(Chain(mesh, nodes, startPolygon, closed, rank, count, nodes[x].previous.value), x, walked);
  }

  /** A predecessor is a polygon of the mesh, expanded before its successor. */
  lemma PredecessorDescends(mesh: seq<MeshPolygon>, nodes: seq<SearchNode>, startPolygon: nat, closed: set<nat>,
                            rank: map<nat, nat>, count: nat, x: nat)
    requires Consistent(mesh, nodes, startPolygon, closed, rank, count)
    requires x < |nodes| && nodes[x].previous.Some?
    ensures nodes[x].previous.value < |nodes|
    ensures Measure(closed, rank, count, nodes[x].previous.value) < Measure(closed, rank, count, x)
  {
    assert PredecessorOk(mesh, nodes, startPolygon, closed, rank, x);
  }

  /** Moving the last polygon of the chain onto the walked list. */
  lemma MoveToWalked(chain: seq<nat>, x: nat, walked: seq<nat>)
    ensures (chain + [x]) + Reverse(walked) == chain + Reverse(walked + [x])
  {
    ReverseSnoc(walked, x);
    assert (chain + [x]) + Reverse(walked) == chain + ([x] + Reverse(walked));
  }

  /** The end of the walk: the start polygon followed by the reversed walk is the polygon path. */
  lemma WalkEnd(mesh: seq<MeshPolygon>, nodes: seq<SearchNode>, startPolygon: nat, closed: set<nat>,
                rank: map<nat, nat>, count: nat, destinationPolygon: nat, x: nat, walked: seq<nat>)
    requires Consistent(mesh, nodes, startPolygon, closed, rank, count)
    requires destinationPolygon < |nodes| && x < |nodes| && nodes[x].previous.None?
    requires Chain(mesh, nodes, startPolygon, closed, rank, count, destinationPolygon)
          == Chain(mesh, nodes, startPolygon, closed, rank, count, x) + Reverse(walked)
    ensures Reverse(walked + [startPolygon])
         == PolygonPath(mesh, nodes, startPolygon, closed, rank, count, destinationPolygon)
  {
    ReverseSnoc(walked, startPolygon);
  }

  /** The reconstruction loop of the source: walk the predecessors from the
      destination polygon while they exist, add the start polygon, reverse. */
  method ReconstructPath(mesh: seq<MeshPolygon>, nodes: seq<SearchNode>, startPolygon: nat, closed: set<nat>,
                         ghost rank: map<nat, nat>, ghost count: nat, destinationPolygon: nat)
    returns (path: seq<nat>)
    requires Consistent(mesh, nodes, startPolygon, closed, rank, count) && destinationPolygon < |nodes|
    ensures path == PolygonPath(mesh, nodes, startPolygon, closed, rank, count, destinationPolygon)
  {
    var walked: seq<nat> := [];
    var currentPolygon: nat := destinationPolygon;
    while nodes[currentPolygon].previous.Some?
      invariant currentPolygon < |nodes|
      invariant Chain(mesh, nodes, startPolygon, closed, rank, count, destinationPolygon)
             == Chain(mesh, nodes, startPolygon, closed, rank, count, currentPolygon) + Reverse(walked)
      decreases Measure(closed, rank, count, currentPolygon)
    {
      WalkStep(mesh, nodes, startPolygon, closed, rank, count, destinationPolygon, currentPolygon, walked);
      walked := walked + [currentPolygon];
      currentPolygon := nodes[currentPolygon].previous.value;
    }
    WalkEnd(mesh, nodes, startPolygon, closed, rank, count, destinationPolygon, currentPolygon, walked);
    path := Reverse(walked + [startPolygon]);
  }
  /** What the polygon path from `start` to `destination` is, on a mesh where
      both points resolve to a polygon: a corridor of adjacent polygons from
      the start point's polygon. It ends at the destination point's polygon
      exactly when that polygon can be reached through adjacent polygons, and
      is otherwise the start polygon alone. */
  ghost predicate PolygonRoute(mesh: seq<MeshPolygon>, geom: MeshGeometry, start: Point, destination: Point,
                               path: seq<nat>)
    requires |mesh| > 0
  {
    var startPolygon := CorrespondingPolygon(mesh, geom, start).value;
    var destinationPolygon := CorrespondingPolygon(mesh, geom, destination).value;
    && |path| >= 1
    && path[0] == startPolygon
    && IsCorridor(mesh, path)
    && (|path| == 1 || path[|path| - 1] == destinationPolygon)
    && (startPolygon == destinationPolygon ==> path == [startPolygon])
    && (Connected(mesh, startPolygon, destinationPolygon) ==> path[|path| - 1] == destinationPolygon)
    && (!Connected(mesh, startPolygon, destinationPolygon) ==> path == [startPolygon])
  }

  /** `GetShortestPathPolygons`: `None` (the source's `null`) exactly when the
      start point resolves to no polygon, which happens only for an empty mesh.
      Otherwise the path starts at the start point's polygon and is a corridor
      of adjacent polygons. It ends at the destination point's polygon exactly
      when that polygon can be reached through adjacent polygons; otherwise it
      is the start polygon alone. When both points resolve to the same polygon
      it is exactly that polygon. */
  method ShortestPathPolygons(mesh: seq<MeshPolygon>, geom: MeshGeometry, start: Point, destination: Point)
    returns (path: Option<seq<nat>>)
    requires WellFormed(mesh)
    ensures path.None? <==> |mesh| == 0
    ensures path.Some? ==> PolygonRoute(mesh, geom, start, destination, path.value)
  {
    var startPolygon := CorrespondingPolygon(mesh, geom, start);
    var destinationPolygon := CorrespondingPolygon(mesh, geom, destination);
    if startPolygon.None? {
      return None;
    }
    var nodes, closed, rank, count := Search(mesh, geom, startPolygon.value, destinationPolygon.value, start, destination);
    var polygons := ReconstructPath(mesh, nodes, startPolygon.value, closed, rank, count, destinationPolygon.value);
    if Connected(mesh, startPolygon.value, destinationPolygon.value) {
      DestinationReached(mesh, nodes, startPolygon.value, closed, rank, count, destinationPolygon.value);
    } else if |polygons| > 1 {
      assert IsWalk(mesh, polygons, startPolygon.value, destinationPolygon.value);
    }
    path := Some(polygons);
  }
}

=== FILE: path_finding.dfy ===
/** The public path-finding operations over the navmesh: funnel portals,
    path assembly, path length, and the dictionary helper `KeyByValue`. */
module PathFinding {
  import opened Wrappers
  import opened Geometry
  import opened Lists
  import opened NavMesh
  import opened NavMeshSearch

  /** The length of a polyline: the sum of the distances between consecutive
      points (the reference definition, summed from the back). */
  function PathLength(dist: Distance, path: seq<Point>): real
  {
    if |path| <= 1 then 0.0
    else PathLength(dist, path[..|path| - 1]) + dist(path[|path| - 2], path[|path| - 1])
  }

  lemma {:induction false} PathLengthNonNegative(dist: Distance, path: seq<Point>)
    requires IsDistance(dist)
    ensures PathLength(dist, path) >= 0.0
    decreases |path|
  {
    if |path| > 1 {
      PathLengthNonNegative(dist, path[..|path| - 1]);
    }
  }

  /** The summing loop of both `GetShortestPathDistance` overloads. */
  method TotalDistance(dist: Distance, path: seq<Point>) returns (totalDistance: real)
    ensures totalDistance == PathLength(dist, path)
    ensures IsDistance(dist) ==> totalDistance >= 0.0
    ensures |path| <= 1 ==> totalDistance == 0.0
  {
    totalDistance := 0.0;
    var i := 0;
    while i < |path| - 1
      invariant 0 <= i <= if |path| == 0 then 0 else |path| - 1
      invariant |path| == 0 ==> totalDistance == 0.0
      invariant |path| > 0 ==> totalDistance == PathLength(dist, path[..i + 1])
    {
      assert path[..i + 2][..i + 1] == path[..i + 1];
      totalDistance := totalDistance + dist(path[i], path[i + 1]);
      i := i + 1;
    }
    if |path| > 0 {
      assert path[..|path|] == path;
    }
    if IsDistance(dist) {
      PathLengthNonNegative(dist, path);
    }
  }

  /** One side of the gates between consecutive path polygons:
      `side(polygonPath[i], polygonPath[i + 1])` for each i. */
  function Gates(side: (nat, nat) -> Point, polygonPath: seq<nat>): (gates: seq<Point>)
    requires |polygonPath| >= 1
    ensures |gates| == |polygonPath| - 1
    ensures forall i :: 0 <= i < |gates| ==> gates[i] == side(polygonPath[i], polygonPath[i + 1])
  {
    seq(|polygonPath| - 1, (i: int) requires 0 <= i < |polygonPath| - 1 => side(polygonPath[i], polygonPath[i + 1]))
  }

  /** The portal arrays of the funnel: the start point, then the diagonal each
      path polygon shares with the next, then the destination point. */
  function Portals(geom: MeshGeometry, startPoint: Point, destinationPoint: Point, polygonPath: seq<nat>)
    : (portals: (seq<Point>, seq<Point>))
    requires |polygonPath| >= 1
    ensures |portals.0| == |portals.1| == |polygonPath| + 1
    ensures portals.0[0] == portals.1[0] == startPoint
    ensures portals.0[|polygonPath|] == portals.1[|polygonPath|] == destinationPoint
    ensures forall i :: 0 <= i < |polygonPath| - 1 ==>
      && portals.0[i + 1] == geom.diagonalLeft(polygonPath[i], polygonPath[i + 1])
      && portals.1[i + 1] == geom.diagonalRight(polygonPath[i], polygonPath[i + 1])
  {
    var left := [startPoint] + Gates(geom.diagonalLeft, polygonPath) + [destinationPoint];
    var right := [startPoint] + Gates(geom.diagonalRight, polygonPath) + [destinationPoint];
    (left, right)
  }

  /** `GetPathBySSFA`: the corner points the funnel loop emits, then the
      destination point. The start point is not part of the output. For a
      one-polygon path the loop emits nothing: with `left == right == 1` the
      guards `i > left` and `i > right` fail at its only step `i == 1`. */
  function PathBySSFA(geom: MeshGeometry, startPoint: Point, destinationPoint: Point, polygonPath: seq<nat>)
    : (path: seq<Point>)
    requires |polygonPath| >= 1
    ensures |path| >= 1 && path[|path| - 1] == destinationPoint
    ensures |polygonPath| == 1 ==> path == [destinationPoint]
  {
    var (left, right) := Portals(geom, startPoint, destinationPoint, polygonPath);
    var corners := if |polygonPath| == 1 then [] else geom.funnelCorners(left, right);
    corners + [destinationPoint]
  }

  /** `GetShortestPath(List<MeshPolygon>, ...)`: the funnel run over the
      polygon path of the A* search. `None` for an empty mesh, where the
      source dereferences the `null` polygon path. Otherwise the path ends at
      the destination point; it is just the destination point when both
      points resolve to the same polygon, or when the destination polygon
      cannot be reached. `polygons` is the polygon path the funnel ran over. */
  method ShortestPath(mesh: seq<MeshPolygon>, geom: MeshGeometry, startPoint: Point, destinationPoint: Point)
    returns (path: Option<seq<Point>>, ghost polygons: seq<nat>)
    requires WellFormed(mesh)
    ensures path.None? <==> |mesh| == 0
    ensures path.Some? ==>
      && PolygonRoute(mesh, geom, startPoint, destinationPoint, polygons)
      && path.value == PathBySSFA(geom, startPoint, destinationPoint, polygons)
    ensures path.Some? ==> |path.value| >= 1 && path.value[|path.value| - 1] == destinationPoint
    ensures path.Some? && CorrespondingPolygon(mesh, geom, startPoint) == CorrespondingPolygon(mesh, geom, destinationPoint)
      ==> path.value == [destinationPoint]
    ensures path.Some? && !Connected(mesh, CorrespondingPolygon(mesh, geom, startPoint).value,
                                     CorrespondingPolygon(mesh, geom, destinationPoint).value)
      ==> path.value == [destinationPoint]
  {
    var polygonPath := ShortestPathPolygons(mesh, geom, startPoint, destinationPoint);
    if polygonPath.None? {
      return None, [];
    }
    polygons := polygonPath.value;
    path := Some(PathBySSFA(geom, startPoint, destinationPoint, polygonPath.value));
  }

  /** `GetShortestPathDistance(List<MeshPolygon>, ...)`: the length of the
      point path `GetShortestPath` returns; never negative, and zero when both
      points resolve to the same polygon or the destination polygon cannot be
      reached. `polygons` is the polygon path that point path came from. */
  method ShortestPathDistance(mesh: seq<MeshPolygon>, geom: MeshGeometry, startPoint: Point, destinationPoint: Point)
    returns (distance: Option<real>, ghost polygons: seq<nat>)
    requires WellFormed(mesh)
    ensures distance.None? <==> |mesh| == 0
    ensures distance.Some? ==>
      && PolygonRoute(mesh, geom, startPoint, destinationPoint, polygons)
      && distance.value == PathLength(geom.distance, PathBySSFA(geom, startPoint, destinationPoint, polygons))
    ensures distance.Some? && ValidGeometry(geom) ==> distance.value >= 0.0
    ensures distance.Some? && CorrespondingPolygon(mesh, geom, startPoint) == CorrespondingPolygon(mesh, geom, destinationPoint)
      ==> distance.value == 0.0
    ensures distance.Some? && !Connected(mesh, CorrespondingPolygon(mesh, geom, startPoint).value,
                                         CorrespondingPolygon(mesh, geom, destinationPoint).value)
      ==> distance.value == 0.0
  {
    var path;
    path, polygons := ShortestPath(mesh, geom, startPoint, destinationPoint);
    if path.None? {
      return None, polygons;
    }
    var total := TotalDistance(geom.distance, path.value);
    distance := Some(total);
  }

  /** `KeyByValue`: the key of the first pair, in the dictionary's iteration
      order, whose value equals `val`; `default` when there is none. */
  method KeyByValue<K, V(==)>(dict: seq<(K, V)>, val: V, default: K) returns (key: K)
    ensures (forall i :: 0 <= i < |dict| ==> dict[i].1 != val) ==> key == default
    ensures forall i :: (0 <= i < |dict| && dict[i].1 == val && (forall j :: 0 <= j < i ==> dict[j].1 != val))
                        ==> key == dict[i].0
  {
    key := default;
    var i := 0;
    while i < |dict|
      invariant 0 <= i <= |dict|
      invariant forall j :: 0 <= j < i ==> dict[j].1 != val
      invariant key == default
    {
      if dict[i].1 == val {
        key := dict[i].0;
        break;
      }
      i := i + 1;
    }
  }
}

=== FILE: priority_queue.dfy ===
/** The external `PriorityQueue<T, float>` of the searches, as a bag of
    (item, key) entries with duplicates allowed. The order of the sequence
    carries no meaning: `PopMin` may take any entry of least key, because the
    library's order among equal keys is not part of this model. */
module PriorityQueue {

  datatype Entry = Entry(item: nat, key: real)

  type Queue = seq<Entry>

  predicate IsMinAt(q: Queue, k: int)
  {
    0 <= k < |q| && forall j :: 0 <= j < |q| ==> q[k].key <= q[j].key
  }

  function RemoveAt(q: Queue, k: nat): (r: Queue)
    requires k < |q|
    ensures multiset(r) + multiset{q[k]} == multiset(q)
  {
    assert q == q[..k] + [q[k]] + q[k + 1..];
    q[..k] + q[k + 1..]
  }

  /** An index of a least key (the last one among ties). */
  function MinIndex(q: Queue): (k: nat)
    requires |q| > 0
    ensures IsMinAt(q, k)
  {
    if |q| == 1 then 0
    else
      var k := MinIndex(q[..|q| - 1]);
      if q[|q| - 1].key <= q[k].key then |q| - 1 else k
  }

  /** `Pop()`: removes and returns an entry of least key. */
  method PopMin(q: Queue) returns (e: Entry, rest: Queue, ghost k: nat)
    requires |q| > 0
    ensures IsMinAt(q, k) && e == q[k] && rest == RemoveAt(q, k)
    ensures multiset(rest) + multiset{e} == multiset(q)
    ensures forall x :: x in q ==> e.key <= x.key
  {
    assert IsMinAt(q, MinIndex(q));
    var i :| 0 <= i < |q| && IsMinAt(q, i);
    k := i;
    e := q[i];
    rest := RemoveAt(q, i);
  }

  /** The number of entries whose item lies in `s`. */
  function CountIn(q: Queue, s: set<nat>): nat
  {
    if q == [] then 0
    else CountIn(q[..|q| - 1], s) + (if q[|q| - 1].item in s then 1 else 0)
  }

  lemma {:induction false} CountInConcat(a: Queue, b: Queue, s: set<nat>)
    ensures CountIn(a + b, s) == CountIn(a, s) + CountIn(b, s)
    decreases |b|
  {
    if b == [] {
      assert a + b == a;
    } else {
      var b' := b[..|b| - 1];
      assert (a + b)[..|a + b| - 1] == a + b';
      CountInConcat(a, b', s);
    }
  }

  /** Removing an entry whose item lies in `s` lowers the count by one. */
  lemma CountInRemoveAt(q: Queue, k: nat, s: set<nat>)
    requires k < |q|
    ensures CountIn(RemoveAt(q, k), s) + (if q[k].item in s then 1 else 0) == CountIn(q, s)
  {
    assert q == q[..k] + [q[k]] + q[k + 1..];
    CountInConcat(q[..k] + [q[k]], q[k + 1..], s);
    CountInConcat(q[..k], [q[k]], s);
    CountInConcat(q[..k], q[k + 1..], s);
    assert CountIn([q[k]], s) == (if q[k].item in s then 1 else 0) by {
      assert [q[k]][..0] == [];
    }
  }

  /** The items of the queue's entries, in queue order. */
  function Items(q: Queue): (r: seq<nat>)
    ensures |r| == |q| && forall k :: 0 <= k < |q| ==> r[k] == q[k].item
  {
    seq(|q|, k requires 0 <= k < |q| => q[k].item)
  }

  /** Appending entries keeps every queued item queued. */
  lemma ItemsConcat(a: Queue, b: Queue)
    ensures forall x :: x in Items(a) ==> x in Items(a + b)
    ensures forall x :: x in Items(b) ==> x in Items(a + b)
  {
    forall x | x in Items(a)
      ensures x in Items(a + b)
    {
      var k :| 0 <= k < |a| && Items(a)[k] == x;
      assert Items(a + b)[k] == x;
    }
    forall x | x in Items(b)
      ensures x in Items(a + b)
    {
      var k :| 0 <= k < |b| && Items(b)[k] == x;
      assert Items(a + b)[|a| + k] == x;
    }
  }

  /** Removing one entry keeps every other item queued. */
  lemma ItemsRemoveAt(q: Queue, k: nat, x: nat)
    requires k < |q| && x in Items(q) && x != q[k].item
    ensures x in Items(RemoveAt(q, k))
  {
    var j :| 0 <= j < |q| && Items(q)[j] == x;
    var r := RemoveAt(q, k);
    if j < k {
      assert Items(r)[j] == x;
    } else {
      assert Items(r)[j - 1] == x;
    }
  }

  /** The ids below `n` not yet in a search's closed list. */
  function Unclosed(n: nat, closed: set<nat>): set<nat>
  {
    set i | 0 <= i < n && i !in closed
  }

  /** Closing `current` either closes one more of the `n` polygons, or it was
      already closed and the queue holds fewer unclosed entries. */
  lemma CloseShrinksMeasure(n: nat, closed: set<nat>, current: nat, open': Queue, open: Queue)
    requires current < n
    requires current in closed ==> CountIn(open', closed) < CountIn(open, closed)
    ensures Unclosed(n, closed + {current}) < Unclosed(n, closed)
         || (closed + {current} == closed && CountIn(open', closed) < CountIn(open, closed))
  {
    if current !in closed {
      assert current in Unclosed(n, closed);
      assert Unclosed(n, closed + {current}) < Unclosed(n, closed);
    } else {
      assert closed + {current} == closed;
    }
  }
}

=== FILE: roadmap_path.dfy ===
/** The road-map overload of `GetShortestPath` / `GetShortestPathDistance`:
    A* over way points, searched from the start way point towards the
    phantom's way point. As written the open list is never seeded, so the
    search loop never runs. */
module RoadMapPathFinding {
  import opened Wrappers
  import opened ExtReals
  import opened Geometry
  import opened Lists
  import opened PriorityQueue
  import opened PathFinding

  /** A road-map node: its position and the indices of its connections. */
  datatype WayPoint = WayPoint(position: Point, connections: seq<nat>)

  /** The phantom: a position together with the way point it sits on. */
  datatype InterceptionPoint = InterceptionPoint(position: Point, destination: nat)

  /** The way point's search fields `gDistance`, `hDistance`, `parent`. */
  datatype WayPointNode = WayPointNode(g: ExtReal, h: ExtReal, parent: Option<nat>)

  predicate WellFormedRoadMap(roadmap: seq<WayPoint>)
  {
    forall i, k :: 0 <= i < |roadmap| && 0 <= k < |roadmap[i].connections| ==> roadmap[i].connections[k] < |roadmap|
  }

  /** The reset loop followed by the seeding of the start way point's costs. */
  function InitialWayPointNodes(roadmap: seq<WayPoint>, dist: Distance, start: nat, goal: nat)
    : (nodes: seq<WayPointNode>)
    requires start < |roadmap| && goal < |roadmap|
    ensures |nodes| == |roadmap|
    ensures forall i :: 0 <= i < |nodes| ==> nodes[i].parent.None?
    ensures forall i :: 0 <= i < |nodes| && i != start ==> nodes[i].g == nodes[i].h == PosInf
    ensures nodes[start].g == Fin(0.0)
    ensures nodes[start].h == Fin(dist(roadmap[start].position, roadmap[goal].position))
  {
    seq(|roadmap|, i => WayPointNode(PosInf, PosInf, None))
      [start := WayPointNode(Fin(0.0), Fin(dist(roadmap[start].position, roadmap[goal].position)), None)]
  }

  /** `GetCostValue(WayPoint, WayPoint)`. */
  function WayPointCost(roadmap: seq<WayPoint>, dist: Distance, nodes: seq<WayPointNode>, previous: nat, current: nat)
    : (g: real)
    requires previous < |nodes| && previous < |roadmap| && current < |roadmap| && nodes[previous].g.Fin?
    ensures IsDistance(dist) ==> g >= nodes[previous].g.v
    ensures g - nodes[previous].g.v == dist(roadmap[previous].position, roadmap[current].position)
  {
    nodes[previous].g.v + dist(roadmap[previous].position, roadmap[current].position)
  }

  ghost predicate WayPointShape(node: WayPointNode)
  {
    !node.g.NegInf? && !node.h.NegInf? && (node.g.Fin? <==> node.h.Fin?)
  }

  /** Relaxation of connection `p` from `current`. As written, the heuristic
      is measured from `current` (not from `p`) to the goal. */
  function RelaxWayPoint(roadmap: seq<WayPoint>, dist: Distance, nodes: seq<WayPointNode>, current: nat, p: nat, goal: nat)
    : (r: seq<WayPointNode>)
    requires |nodes| == |roadmap| && current < |nodes| && p < |nodes| && goal < |nodes|
    requires nodes[current].g.Fin? && WayPointShape(nodes[p])
    ensures |r| == |nodes| && forall j :: 0 <= j < |nodes| && j != p ==> r[j] == nodes[j]
    ensures
      var g := WayPointCost(roadmap, dist, nodes, current, p);
      var h := dist(roadmap[current].position, roadmap[goal].position);
      && (Less(Fin(g + h), Plus(nodes[p].g, nodes[p].h)) ==> r[p] == WayPointNode(Fin(g), Fin(h), Some(current)))
      && (!Less(Fin(g + h), Plus(nodes[p].g, nodes[p].h)) ==> r[p] == nodes[p])
      && r[p].g.Fin? && r[p].h.Fin?
  {
    var g := WayPointCost(roadmap, dist, nodes, current, p);
    var h := dist(roadmap[current].position, roadmap[goal].position);
    if Less(Fin(g + h), Plus(nodes[p].g, nodes[p].h)) then nodes[p := WayPointNode(Fin(g), Fin(h), Some(current))]
    else nodes
  }

  /** What the loop keeps: every node well shaped, every queued or closed way
      point reached. */
  ghost predicate LoopState(roadmap: seq<WayPoint>, nodes: seq<WayPointNode>, open: Queue, closed: set<nat>)
  {
    && |nodes| == |roadmap|
    && (forall i :: 0 <= i < |nodes| ==> WayPointShape(nodes[i]))
    && (forall x :: x in closed ==> x < |roadmap| && nodes[x].g.Fin?)
    && (forall k :: 0 <= k < |open| ==> open[k].item < |nodes| && nodes[open[k].item].g.Fin?)
  }

  /** The key a reached way point is queued with: its stored `g + h`. */
  function WayPointKey(node: WayPointNode): real
    requires node.g.Fin? && node.h.Fin?
  {
    node.g.v + node.h.v
  }

  /** The entries the connection loop appends for the connections `ps`: one per
      connection not in `closed`, in connection order, keyed by its stored total. */
  function RequeuedWayPoints(nodes: seq<WayPointNode>, ps: seq<nat>, closed: set<nat>): (q: Queue)
    requires forall k :: 0 <= k < |ps| && ps[k] !in closed ==>
      ps[k] < |nodes| && nodes[ps[k]].g.Fin? && nodes[ps[k]].h.Fin?
    ensures forall k :: 0 <= k < |q| ==> q[k].item in ps && q[k].item !in closed
    ensures forall x :: x in ps && x !in closed ==> x in Items(q)
  {
    if ps == [] then []
    else
      var p := ps[|ps| - 1];
      var q := RequeuedWayPoints(nodes, ps[..|ps| - 1], closed);
      assert ps == ps[..|ps| - 1] + [p];
      if p in closed then q
      else
        ItemsConcat(q, [Entry(p, WayPointKey(nodes[p]))]);
        assert Items([Entry(p, WayPointKey(nodes[p]))])[0] == p;
        q + [Entry(p, WayPointKey(nodes[p]))]
  }

  lemma {:induction false} RequeuedWayPointsFrame(nodes: seq<WayPointNode>, nodes': seq<WayPointNode>, ps: seq<nat>,
                                                  closed: set<nat>)
    requires forall k :: 0 <= k < |ps| && ps[k] !in closed ==>
      ps[k] < |nodes| && ps[k] < |nodes'| && nodes[ps[k]] == nodes'[ps[k]]
      && nodes[ps[k]].g.Fin? && nodes[ps[k]].h.Fin?
    ensures RequeuedWayPoints(nodes, ps, closed) == RequeuedWayPoints(nodes', ps, closed)
  {
    if ps != [] {
      RequeuedWayPointsFrame(nodes, nodes', ps[..|ps| - 1], closed);
    }
  }

  /** Relaxing `p` a second time from the same way point, whose own node is
      unchanged, changes nothing more. */
  lemma RelaxWayPointAgain(roadmap: seq<WayPoint>, dist: Distance, nodes: seq<WayPointNode>,
                           nodes1: seq<WayPointNode>, current: nat, p: nat, goal: nat)
    requires |nodes| == |roadmap| && current < |nodes| && p < |nodes| && goal < |nodes|
    requires nodes[current].g.Fin? && WayPointShape(nodes[p])
    requires |nodes1| == |nodes| && nodes1[current] == nodes[current]
    requires nodes1[p] == nodes[p] || nodes1[p] == RelaxWayPoint(roadmap, dist, nodes, current, p, goal)[p]
    ensures WayPointShape(nodes1[p])
    ensures RelaxWayPoint(roadmap, dist, nodes1, current, p, goal)[p]
         == RelaxWayPoint(roadmap, dist, nodes, current, p, goal)[p]
  {
    assert WayPointCost(roadmap, dist, nodes1, current, p) == WayPointCost(roadmap, dist, nodes, current, p);
  }

  /** After the connection loop of `current` has visited the connections
      `ps`, with `closed` the way points expanded before `current`: way points
      that are closed or not yet visited are unchanged, every visited unclosed
      connection is reached, and the entries appended to the queue are exactly
      the visited unclosed connections. */
  ghost predicate ConnectionsVisited(roadmap: seq<WayPoint>, nodes: seq<WayPointNode>, open: Queue,
                                     closed: set<nat>, current: nat, goal: nat, ps: seq<nat>,
                                     nodes': seq<WayPointNode>, open': Queue)
  {
    && |nodes| == |roadmap| && current < |nodes| && goal < |nodes| && nodes[current].g.Fin?
    && (forall i :: 0 <= i < |nodes| ==> WayPointShape(nodes[i]))
    && |nodes'| == |nodes|
    && (forall x :: 0 <= x < |nodes| && (x in closed || x !in ps) ==> nodes'[x] == nodes[x])
    && (forall x :: x in ps && x !in closed ==> x < |nodes| && nodes'[x].g.Fin? && nodes'[x].h.Fin?)
    && |open| <= |open'| && open'[..|open|] == open
    && (forall k :: |open| <= k < |open'| ==> open'[k].item in ps && open'[k].item !in closed)
    && (forall x :: x in ps && x !in closed ==> x in Items(open'[|open|..]))
  }

  /** Each visited unclosed connection holds its relaxation from `current`
      on the nodes before the loop, and the appended entries are
      `RequeuedWayPoints`. */
  ghost predicate RelaxedFromCurrent(roadmap: seq<WayPoint>, dist: Distance, nodes: seq<WayPointNode>, open: Queue,
                                     closed: set<nat>, current: nat, goal: nat, ps: seq<nat>,
                                     nodes': seq<WayPointNode>, open': Queue)
  {
    && ConnectionsVisited(roadmap, nodes, open, closed, current, goal, ps, nodes', open')
    && (forall x :: x in ps && x !in closed ==> nodes'[x] == RelaxWayPoint(roadmap, dist, nodes, current, x, goal)[x])
    && open' == open + RequeuedWayPoints(nodes', ps, closed)
  }

  /** `ConnectionsVisited`, and unless `current` has met itself as an
      unclosed connection (which relaxes its own node mid-loop), also
      `RelaxedFromCurrent`. */
  ghost predicate ConnectionsRelaxed(roadmap: seq<WayPoint>, dist: Distance, nodes: seq<WayPointNode>, open: Queue,
                                     closed: set<nat>, current: nat, goal: nat, ps: seq<nat>,
                                     nodes': seq<WayPointNode>, open': Queue)
  {
    && ConnectionsVisited(roadmap, nodes, open, closed, current, goal, ps, nodes', open')
    && (current in closed || current !in ps ==>
          RelaxedFromCurrent(roadmap, dist, nodes, open, closed, current, goal, ps, nodes', open'))
  }

  /** Visiting one more unclosed connection `p`, relaxed on the current nodes. */
  lemma VisitStep(roadmap: seq<WayPoint>, dist: Distance, nodes: seq<WayPointNode>, open: Queue,
                  closed: set<nat>, current: nat, goal: nat, ps: seq<nat>, p: nat,
                  nodes': seq<WayPointNode>, open': Queue)
    requires p < |nodes| && p !in closed
    requires ConnectionsVisited(roadmap, nodes, open, closed, current, goal, ps, nodes', open')
    requires nodes'[current].g.Fin? && WayPointShape(nodes'[p])
    ensures
      var r := RelaxWayPoint(roadmap, dist, nodes', current, p, goal);
      ConnectionsVisited(roadmap, nodes, open, closed, current, goal, ps + [p],
                         r, open' + [Entry(p, WayPointKey(r[p]))])
  {
    var r := RelaxWayPoint(roadmap, dist, nodes', current, p, goal);
    var e := Entry(p, WayPointKey(r[p]));
    assert (open' + [e])[..|open|] == open;
    assert (open' + [e])[|open|..] == open'[|open|..] + [e];
    ItemsConcat(open'[|open|..], [e]);
    assert Items([e])[0] == p;
    forall x | 0 <= x < |nodes| && (x in closed || x !in ps + [p])
      ensures r[x] == nodes[x]
    {
      assert x != p;
    }
    forall x | x in ps + [p] && x !in closed
      ensures x < |nodes| && r[x].g.Fin? && r[x].h.Fin?
    {
      if x != p {
        assert x in ps;
      }
    }
  }

  /** Relaxing one more unclosed connection `p` other than `current` keeps
      `RelaxedFromCurrent`. */
  lemma RelaxedFromCurrentStep(roadmap: seq<WayPoint>, dist: Distance, nodes: seq<WayPointNode>, open: Queue,
                               closed: set<nat>, current: nat, goal: nat, ps: seq<nat>, p: nat,
                               nodes': seq<WayPointNode>, open': Queue)
    requires p < |nodes| && p !in closed && (current in closed || current !in ps + [p])
    requires RelaxedFromCurrent(roadmap, dist, nodes, open, closed, current, goal, ps, nodes', open')
    ensures
      var r := RelaxWayPoint(roadmap, dist, nodes', current, p, goal);
      RelaxedFromCurrent(roadmap, dist, nodes, open, closed, current, goal, ps + [p],
                         r, open' + [Entry(p, WayPointKey(r[p]))])
  {
    assert nodes'[current] == nodes[current];
    RelaxWayPointAgain(roadmap, dist, nodes, nodes', current, p, goal);
    VisitStep(roadmap, dist, nodes, open, closed, current, goal, ps, p, nodes', open');
    RelaxedNodesStep(roadmap, dist, nodes, closed, current, goal, ps, p, nodes');
    var r := RelaxWayPoint(roadmap, dist, nodes', current, p, goal);
    forall x | x in ps && x !in closed
      ensures r[x] == nodes'[x]
    {
      if x == p {
        assert nodes'[p] == RelaxWayPoint(roadmap, dist, nodes, current, p, goal)[p];
      }
    }
    RequeuedStep(nodes', closed, ps, p, r);
  }

  lemma RelaxedNodesStep(roadmap: seq<WayPoint>, dist: Distance, nodes: seq<WayPointNode>, closed: set<nat>,
                         current: nat, goal: nat, ps: seq<nat>, p: nat, nodes': seq<WayPointNode>)
    requires |nodes| == |roadmap| && current < |nodes| && goal < |nodes| && nodes[current].g.Fin?
    requires forall i :: 0 <= i < |nodes| ==> WayPointShape(nodes[i])
    requires p < |nodes| && p !in closed && |nodes'| == |nodes| && nodes'[current] == nodes[current]
    requires nodes'[p] == nodes[p] || nodes'[p] == RelaxWayPoint(roadmap, dist, nodes, current, p, goal)[p]
    requires forall x :: x in ps && x !in closed ==>
      x < |nodes| && nodes'[x] == RelaxWayPoint(roadmap, dist, nodes, current, x, goal)[x]
    ensures
      var r := RelaxWayPoint(roadmap, dist, nodes', current, p, goal);
      forall x :: x in ps + [p] && x !in closed ==> r[x] == RelaxWayPoint(roadmap, dist, nodes, current, x, goal)[x]
  {
    RelaxWayPointAgain(roadmap, dist, nodes, nodes', current, p, goal);
    var r := RelaxWayPoint(roadmap, dist, nodes', current, p, goal);
    forall x | x in ps + [p] && x !in closed
      ensures r[x] == RelaxWayPoint(roadmap, dist, nodes, current, x, goal)[x]
    {
      if x != p {
        assert x in ps;
      }
    }
  }

  lemma RequeuedStep(nodes': seq<WayPointNode>, closed: set<nat>, ps: seq<nat>, p: nat, r: seq<WayPointNode>)
    requires p < |r| && p !in closed && r[p].g.Fin? && r[p].h.Fin? && |r| == |nodes'|
    requires forall x :: x in ps && x !in closed ==>
      x < |nodes'| && r[x] == nodes'[x] && nodes'[x].g.Fin? && nodes'[x].h.Fin?
    ensures RequeuedWayPoints(r, ps + [p], closed) == RequeuedWayPoints(nodes', ps, closed) + [Entry(p, WayPointKey(r[p]))]
  {
    RequeuedWayPointsFrame(nodes', r, ps, closed);
    assert (ps + [p])[..|ps|] == ps;
  }

  /** One iteration of the connection loop on an unclosed connection `ns[j]`. */
  lemma RelaxConnectionStep(roadmap: seq<WayPoint>, dist: Distance, nodes: seq<WayPointNode>, open: Queue,
                            closed: set<nat>, current: nat, goal: nat, ns: seq<nat>, j: nat,
                            nodes': seq<WayPointNode>, open': Queue)
    requires j < |ns| && ns[j] < |nodes| && ns[j] !in closed
    requires ConnectionsRelaxed(roadmap, dist, nodes, open, closed, current, goal, ns[..j], nodes', open')
    requires nodes'[current].g.Fin? && WayPointShape(nodes'[ns[j]])
    ensures
      var r := RelaxWayPoint(roadmap, dist, nodes', current, ns[j], goal);
      ConnectionsRelaxed(roadmap, dist, nodes, open, closed, current, goal, ns[..j + 1],
                         r, open' + [Entry(ns[j], WayPointKey(r[ns[j]]))])
  {
    assert ns[..j + 1] == ns[..j] + [ns[j]];
    VisitStep(roadmap, dist, nodes, open, closed, current, goal, ns[..j], ns[j], nodes', open');
    if current in closed || current !in ns[..j] + [ns[j]] {
      RelaxedFromCurrentStep(roadmap, dist, nodes, open, closed, current, goal, ns[..j], ns[j], nodes', open');
    }
  }

  /** Skipping one more closed connection `p` keeps both predicates. */
  lemma SkipStep(roadmap: seq<WayPoint>, dist: Distance, nodes: seq<WayPointNode>, open: Queue,
                 closed: set<nat>, current: nat, goal: nat, ps: seq<nat>, p: nat,
                 nodes': seq<WayPointNode>, open': Queue)
    requires p in closed
    requires ConnectionsVisited(roadmap, nodes, open, closed, current, goal, ps, nodes', open')
    ensures ConnectionsVisited(roadmap, nodes, open, closed, current, goal, ps + [p], nodes', open')
    ensures RelaxedFromCurrent(roadmap, dist, nodes, open, closed, current, goal, ps, nodes', open') ==>
            RelaxedFromCurrent(roadmap, dist, nodes, open, closed, current, goal, ps + [p], nodes', open')
  {
    if RelaxedFromCurrent(roadmap, dist, nodes, open, closed, current, goal, ps, nodes', open') {
      assert (ps + [p])[..|ps|] == ps;
    }
  }

  /** One iteration of the connection loop on a closed connection `ns[j]`. */
  lemma SkipConnectionStep(roadmap: seq<WayPoint>, dist: Distance, nodes: seq<WayPointNode>, open: Queue,
                           closed: set<nat>, current: nat, goal: nat, ns: seq<nat>, j: nat,
                           nodes': seq<WayPointNode>, open': Queue)
    requires j < |ns| && ns[j] in closed
    requires ConnectionsRelaxed(roadmap, dist, nodes, open, closed, current, goal, ns[..j], nodes', open')
    ensures ConnectionsRelaxed(roadmap, dist, nodes, open, closed, current, goal, ns[..j + 1], nodes', open')
  {
    assert ns[..j + 1] == ns[..j] + [ns[j]];
    SkipStep(roadmap, dist, nodes, open, closed, current, goal, ns[..j], ns[j], nodes', open');
  }

  /** Relaxing reached way points and queuing a reached one keeps `LoopState`. */
  lemma RelaxKeepsLoopState(roadmap: seq<WayPoint>, nodes: seq<WayPointNode>, open: Queue, closed: set<nat>,
                            nodes': seq<WayPointNode>, e: Entry)
    requires LoopState(roadmap, nodes, open, closed)
    requires |nodes'| == |nodes| && forall i :: 0 <= i < |nodes| ==>
      nodes'[i] == nodes[i] || (nodes'[i].g.Fin? && nodes'[i].h.Fin?)
    requires e.item < |nodes'| && nodes'[e.item].g.Fin?
    ensures LoopState(roadmap, nodes', open + [e], closed)
  {
  }

  /** One iteration of the inner `foreach`, on the connection `ns[j]` of `current`. */
  method RelaxConnection(roadmap: seq<WayPoint>, dist: Distance, nodes: seq<WayPointNode>, open: Queue,
                         closed: set<nat>, current: nat, goal: nat, ns: seq<nat>, j: nat,
                         nodes': seq<WayPointNode>, open': Queue)
    returns (nodes'': seq<WayPointNode>, open'': Queue)
    requires WellFormedRoadMap(roadmap) && current < |roadmap| && ns == roadmap[current].connections && j < |ns|
    requires LoopState(roadmap, nodes', open', closed) && nodes'[current].g.Fin?
    requires ConnectionsRelaxed(roadmap, dist, nodes, open, closed, current, goal, ns[..j], nodes', open')
    ensures LoopState(roadmap, nodes'', open'', closed) && nodes''[current].g.Fin?
    ensures CountIn(open'', closed) == CountIn(open', closed)
    ensures ConnectionsRelaxed(roadmap, dist, nodes, open, closed, current, goal, ns[..j + 1], nodes'', open'')
  {
    var p := ns[j];
    if p !in closed {
      RelaxConnectionStep(roadmap, dist, nodes, open, closed, current, goal, ns, j, nodes', open');
      nodes'' := RelaxWayPoint(roadmap, dist, nodes', current, p, goal);
      var e := Entry(p, WayPointKey(nodes''[p]));
      RelaxKeepsLoopState(roadmap, nodes', open', closed, nodes'', e);
      CountInConcat(open', [e], closed);
      assert CountIn([e], closed) == 0 by {
        assert [e][..0] == [];
      }
      open'' := open' + [e];
    } else {
      SkipConnectionStep(roadmap, dist, nodes, open, closed, current, goal, ns, j, nodes', open');
      nodes'', open'' := nodes', open';
    }
  }

  /** The inner `foreach` over the connections of `current`: way points
      already closed are skipped; every other connection is relaxed from
      `current` and queued again with its stored total, in connection order,
      whether or not it improved. */
  method RelaxConnections(roadmap: seq<WayPoint>, dist: Distance, nodes: seq<WayPointNode>, open: Queue,
                          closed: set<nat>, current: nat, goal: nat)
    returns (nodes': seq<WayPointNode>, open': Queue)
    requires WellFormedRoadMap(roadmap) && LoopState(roadmap, nodes, open, closed)
    requires current < |nodes| && nodes[current].g.Fin? && goal < |nodes|
    ensures LoopState(roadmap, nodes', open', closed)
    ensures CountIn(open', closed) == CountIn(open, closed)
    ensures ConnectionsRelaxed(roadmap, dist, nodes, open, closed, current, goal, roadmap[current].connections,
                               nodes', open')
  {
    nodes' := nodes;
    open' := open;
    var connections := roadmap[current].connections;
    assert connections[..0] == [];
    assert open'[|open|..] == [];
    var j := 0;
    while j < |connections|
      invariant 0 <= j <= |connections|
      invariant LoopState(roadmap, nodes', open', closed) && nodes'[current].g.Fin?
      invariant CountIn(open', closed) == CountIn(open, closed)
      invariant ConnectionsRelaxed(roadmap, dist, nodes, open, closed, current, goal, connections[..j], nodes', open')
    {
      nodes', open' := RelaxConnection(roadmap, dist, nodes, open, closed, current, goal, connections, j,
                                       nodes', open');
      j := j + 1;
    }
    assert connections[..j] == connections;
  }

  /** One iteration of the search loop: pop a way point of least key (the
      entry at `k`), relax its connections, and close it. */
  method ExpandWayPoint(roadmap: seq<WayPoint>, dist: Distance, nodes: seq<WayPointNode>, open: Queue,
                        closed: set<nat>, goal: nat)
    returns (current: nat, nodes': seq<WayPointNode>, open': Queue, ghost k: nat)
    requires WellFormedRoadMap(roadmap) && LoopState(roadmap, nodes, open, closed) && open != [] && goal < |roadmap|
    ensures IsMinAt(open, k) && open[k].item == current && current < |nodes| && nodes[current].g.Fin?
    ensures ConnectionsRelaxed(roadmap, dist, nodes, RemoveAt(open, k), closed, current, goal,
                               roadmap[current].connections, nodes', open')
    ensures LoopState(roadmap, nodes', open', closed + {current})
    ensures Unclosed(|roadmap|, closed + {current}) < Unclosed(|roadmap|, closed)
         || (closed + {current} == closed && CountIn(open', closed) < CountIn(open, closed))
  {
    var e: Entry;
    var rest: Queue;
    e, rest, k := PopMin(open);
    CountInRemoveAt(open, k, closed);
    current := e.item;
    nodes', open' := RelaxConnections(roadmap, dist, nodes, rest, closed, current, goal);
    CloseKeepsLoopState(roadmap, dist, nodes, rest, closed, current, goal, nodes', open');
    CloseShrinksMeasure(|roadmap|, closed, current, open', open);
  }

  /** Closing the expanded way point keeps `LoopState`: its node is reached. */
  lemma CloseKeepsLoopState(roadmap: seq<WayPoint>, dist: Distance, nodes: seq<WayPointNode>, open: Queue,
                            closed: set<nat>, current: nat, goal: nat, nodes': seq<WayPointNode>, open': Queue)
    requires current < |roadmap| && LoopState(roadmap, nodes', open', closed)
    requires ConnectionsRelaxed(roadmap, dist, nodes, open, closed, current, goal, roadmap[current].connections,
                                nodes', open')
    ensures LoopState(roadmap, nodes', open', closed + {current})
  {
    if current in closed || current !in roadmap[current].connections {
      assert nodes'[current] == nodes[current];
    }
  }

  /** What the search loop keeps, relative to the nodes `nodes0` and the queue
      `open0` it started from: `closed` holds exactly the `expanded` way
      points; every way point queued at the start or updated since is
      expanded or still queued; every connection of an expanded way point has
      been reached. */
  ghost predicate SearchLoopState(roadmap: seq<WayPoint>, nodes0: seq<WayPointNode>, open0: Queue,
                                  nodes: seq<WayPointNode>, open: Queue, closed: set<nat>, expanded: seq<nat>)
  {
    && WellFormedRoadMap(roadmap)
    && LoopState(roadmap, nodes, open, closed)
    && |nodes0| == |nodes|
    && (forall x :: x in closed <==> x in expanded)
    && (forall i :: 0 <= i < |nodes| && i !in closed && (nodes[i] != nodes0[i] || i in Items(open0)) ==>
          i in Items(open))
    && (forall x, k :: x in closed && x < |roadmap| && 0 <= k < |roadmap[x].connections| ==>
          nodes[roadmap[x].connections[k]].g.Fin?)
  }

  lemma ExpandKeepsSearchLoopState(roadmap: seq<WayPoint>, dist: Distance, nodes0: seq<WayPointNode>, open0: Queue,
                                   nodes: seq<WayPointNode>, open: Queue, closed: set<nat>, expanded: seq<nat>,
                                   k: nat, current: nat, goal: nat, nodes': seq<WayPointNode>, open': Queue)
    requires SearchLoopState(roadmap, nodes0, open0, nodes, open, closed, expanded)
    requires IsMinAt(open, k) && open[k].item == current
    requires ConnectionsRelaxed(roadmap, dist, nodes, RemoveAt(open, k), closed, current, goal,
                                roadmap[current].connections, nodes', open')
    requires LoopState(roadmap, nodes', open', closed + {current})
    ensures SearchLoopState(roadmap, nodes0, open0, nodes', open', closed + {current}, expanded + [current])
  {
    var rest := RemoveAt(open, k);
    var added := open'[|rest|..];
    assert open' == rest + added;
    ItemsConcat(rest, added);
    forall i | 0 <= i < |nodes'| && i !in closed + {current} && (nodes'[i] != nodes0[i] || i in Items(open0))
      ensures i in Items(open')
    {
      if nodes'[i] == nodes[i] {
        ItemsRemoveAt(open, k, i);
      }
    }
    forall i | 0 <= i < |nodes| && nodes[i].g.Fin?
      ensures nodes'[i].g.Fin?
    {
    }
  }

  /** The search loop, run on whatever open list it is given. It ends either
      right after the first expansion of the goal way point, or with the queue
      drained, when every way point queued at the start or updated by the
      search has been expanded. Every connection of an expanded way point has
      been reached, and `expanded` lists the expansions in order. */
  method SearchLoop(roadmap: seq<WayPoint>, dist: Distance, nodes: seq<WayPointNode>, open: Queue, goal: nat)
    returns (nodes': seq<WayPointNode>, closed: set<nat>, ghost expanded: seq<nat>)
    requires WellFormedRoadMap(roadmap) && LoopState(roadmap, nodes, open, {}) && goal < |roadmap|
    ensures |nodes'| == |nodes|
    ensures open == [] ==> nodes' == nodes && closed == {}
    ensures forall x :: x in closed <==> x in expanded
    ensures goal in closed ==> expanded[|expanded| - 1] == goal && goal !in expanded[..|expanded| - 1]
    ensures goal !in closed ==>
      forall i :: 0 <= i < |nodes'| && (nodes'[i] != nodes[i] || i in Items(open)) ==> i in closed
    ensures forall x, k :: x in closed && x < |roadmap| && 0 <= k < |roadmap[x].connections| ==>
      nodes'[roadmap[x].connections[k]].g.Fin?
  {
    nodes' := nodes;
    closed := {};
    expanded := [];
    var q := open;
    while q != []
      invariant SearchLoopState(roadmap, nodes, open, nodes', q, closed, expanded)
      invariant goal !in closed
      invariant open == [] ==> nodes' == nodes && closed == {} && q == []
      decreases Unclosed(|roadmap|, closed), CountIn(q, closed)
    {
      ghost var before := expanded;
      var current, nodes1, q1, k := ExpandWayPoint(roadmap, dist, nodes', q, closed, goal);
      ExpandKeepsSearchLoopState(roadmap, dist, nodes, open, nodes', q, closed, expanded, k, current, goal,
                                 nodes1, q1);
      nodes', q := nodes1, q1;
      closed := closed + {current};
      expanded := expanded + [current];

      // Stop the search once the goal way point has been expanded.
      if current == goal {
        assert expanded[..|expanded| - 1] == before;
        break;
      }
    }
  }

  /** The positions met walking the parents from `w`, `w` first, stopping at
      the first way point without a parent or after `fuel` steps. */
  function ParentTrail(roadmap: seq<WayPoint>, nodes: seq<WayPointNode>, w: nat, fuel: nat): (trail: seq<Point>)
    requires |nodes| == |roadmap| && w < |nodes|
    requires forall i :: 0 <= i < |nodes| && nodes[i].parent.Some? ==> nodes[i].parent.value < |nodes|
    ensures nodes[w].parent.None? ==> trail == []
    ensures |trail| <= fuel
    decreases fuel
  {
    if fuel == 0 || nodes[w].parent.None? then []
    else [roadmap[w].position] + ParentTrail(roadmap, nodes, nodes[w].parent.value, fuel - 1)
  }

  /** `GetShortestPath(List<WayPoint>, InterceptionPoint, WayPoint)`: since
      the open list starts empty, every parent stays `null` and the result is
      the phantom's position followed by the start way point's position. */
  method RoadMapShortestPath(roadmap: seq<WayPoint>, dist: Distance, goalPh: InterceptionPoint, start: nat)
    returns (path: seq<Point>)
    requires WellFormedRoadMap(roadmap) && start < |roadmap| && goalPh.destination < |roadmap|
    ensures path == [goalPh.position, roadmap[start].position]
  {
    var goal := goalPh.destination;
    var nodes := InitialWayPointNodes(roadmap, dist, start, goal);
    var open: Queue := [];
    var closed: set<nat>;
    ghost var expanded: seq<nat>;
    nodes, closed, expanded := SearchLoop(roadmap, dist, nodes, open, goal);
    var result := ParentTrail(roadmap, nodes, goal, |roadmap|);
    result := result + [roadmap[start].position];
    result := result + [goalPh.position];
    path := Reverse(result);
  }

  /** `GetShortestPathDistance(List<WayPoint>, ...)`: the straight distance
      between the phantom and the start way point. */
  method RoadMapShortestPathDistance(roadmap: seq<WayPoint>, dist: Distance, goalPh: InterceptionPoint, start: nat)
    returns (totalDistance: real)
    requires WellFormedRoadMap(roadmap) && start < |roadmap| && goalPh.destination < |roadmap|
    ensures totalDistance == dist(goalPh.position, roadmap[start].position)
  {
    var path := RoadMapShortestPath(roadmap, dist, goalPh, start);
    totalDistance := TotalDistance(dist, path);
    assert path[..1] == [goalPh.position];
  }
}

=== FILE: searcher.dfy ===
/** The road-map probability field of the search phase (`Searcher`): one tick
    of the simple or the diffusion model, normalisation of the field, and the
    choice of the segment a guard should search next. */
module Searcher {
  import opened Wrappers
  import opened ExtReals
  import opened Geometry

  /** `m_minSegThreshold`: only segments strictly above it are search targets;
      the simple model normalises only when the tick maximum is below it. */
  const MinSegThreshold: real := 0.4

  /** `m_expansionMultiplyer` of the simple model's `ExpandSs` speed. */
  const ExpansionMultiplier: real := 0.75

  /** The unswept interval of a road-map line with its belief and age. */
  datatype SearchSegment = SearchSegment(position1: Point, position2: Point, probability: real, age: real)

  /** A road-map line: its search segment, and the indices of the lines
      connected at its first and at its second way point. */
  datatype RoadMapLine = RoadMapLine(segment: SearchSegment, wp1Connections: seq<nat>, wp2Connections: seq<nat>)

  /** What the selection reads of a guard: where it is, `IsBusy()`, `GetGoal()`. */
  datatype Guard = Guard(position: Point, busy: bool, goal: Option<Point>)

  datatype SearchWeights = SearchWeights(probWeight: real, ageWeight: real, dstToGuardsWeight: real,
                                         dstFromOwnWeight: real)

  /** The global tuning constants `Properties.ProbDiffFac`, `MaxAge`, `MaxPathDistance`. */
  datatype Properties = Properties(probDiffFac: real, maxAge: real, maxPathDistance: real)

  datatype GuardSearchPlanner = RmPropSimple | RmPropOccupancyDiffusal | OtherPlanner

  /** The line and segment behaviour defined in files that are not part of
      this model, left uninterpreted. Each update returns the line's new
      search segment and touches nothing else. */
  datatype LineBehaviour = LineBehaviour(
    propagateProb: (RoadMapLine, real, real) -> SearchSegment,
    increaseProbability: (RoadMapLine, real, real) -> SearchSegment,
    expandSs: (RoadMapLine, real, real) -> SearchSegment,
    checkSeenSegment: (RoadMapLine, Guard) -> SearchSegment,
    fitness: SearchSegment -> real,
    midPoint: SearchSegment -> Point)

  /** The connections of a line as diffusion visits them: those at its
      first way point, then those at its second. */
  function Neighbourhood(line: RoadMapLine): seq<nat>
  {
    line.wp1Connections + line.wp2Connections
  }

  /** Every connection refers to a line of the road map. */
  predicate WellFormedLines(lines: seq<RoadMapLine>)
  {
    forall i, k :: 0 <= i < |lines| && 0 <= k < |Neighbourhood(lines[i])| ==> Neighbourhood(lines[i])[k] < |lines|
  }

  predicate SameConnections(a: seq<RoadMapLine>, b: seq<RoadMapLine>)
  {
    |a| == |b| &&
    forall j :: 0 <= j < |a| ==>
      a[j].wp1Connections == b[j].wp1Connections && a[j].wp2Connections == b[j].wp2Connections
  }

  function Probability(line: RoadMapLine): real
  {
    line.segment.probability
  }

  function WithProbability(line: RoadMapLine, p: real): RoadMapLine
  {
    line.(segment := line.segment.(probability := p))
  }

  // ---------------------------------------------------------------- updates

  /** `CheckSeenSs`: the seen-check of every guard, in list order. */
  function CheckSeenSs(b: LineBehaviour, line: RoadMapLine, guards: seq<Guard>): (r: RoadMapLine)
    ensures r.wp1Connections == line.wp1Connections && r.wp2Connections == line.wp2Connections
    decreases |guards|
  {
    if guards == [] then line
    else CheckSeenSs(b, line.(segment := b.checkSeenSegment(line, guards[0])), guards[1..])
  }

  /** The simple model's per-line step: propagate, increase, expand at
      `speed * ExpansionMultiplier`, then the seen-checks. */
  function SimpleLineUpdate(b: LineBehaviour, line: RoadMapLine, guards: seq<Guard>, speed: real, timeDelta: real)
    : (r: RoadMapLine)
    ensures r.wp1Connections == line.wp1Connections && r.wp2Connections == line.wp2Connections
  {
    var l1 := line.(segment := b.propagateProb(line, speed, timeDelta));
    var l2 := l1.(segment := b.increaseProbability(l1, speed, timeDelta));
    var l3 := l2.(segment := b.expandSs(l2, speed * ExpansionMultiplier, timeDelta));
    CheckSeenSs(b, l3, guards)
  }

  /** The probability sum over the connections other than `self`. */
  function RawNeighbourSum(lines: seq<RoadMapLine>, self: nat, connections: seq<nat>): real
    requires forall k :: 0 <= k < |connections| ==> connections[k] < |lines|
  {
    if connections == [] then 0.0
    else
      (if connections[0] != self then Probability(lines[connections[0]]) else 0.0)
      + RawNeighbourSum(lines, self, connections[1..])
  }

  /** The number of connections other than line `self`, as a real: the
      source uses it only as the divisor of a float. */
  function NeighbourCount(self: nat, connections: seq<nat>): (r: real)
    ensures r >= 0.0
  {
    if connections == [] then 0.0
    else (if connections[0] != self then 1.0 else 0.0) + NeighbourCount(self, connections[1..])
  }

  /** The count is the number of connections minus the occurrences of the
      line itself, every other connection counted once per occurrence. */
  lemma {:induction false} NeighbourCountExcludesSelf(self: nat, connections: seq<nat>)
    ensures NeighbourCount(self, connections) == (|connections| - multiset(connections)[self]) as real
  {
    if connections != [] {
      assert connections == [connections[0]] + connections[1..];
      NeighbourCountExcludesSelf(self, connections[1..]);
    }
  }

  /** The number of neighbours of line `i` over both way points. */
  function NeighbourhoodCount(lines: seq<RoadMapLine>, i: nat): (r: real)
    requires i < |lines|
  {
    NeighbourCount(i, Neighbourhood(lines[i]))
  }

  /** The probability sum over the neighbours of line `i`. */
  function NeighbourhoodRawSum(lines: seq<RoadMapLine>, i: nat): real
    requires WellFormedLines(lines) && i < |lines|
  {
    RawNeighbourSum(lines, i, Neighbourhood(lines[i]))
  }

  /** The scaled probability sum over the neighbours of line `i`. The
      source scales each term by the diffusion factor; here the factor is
      taken out of the sum, which is the same over the reals. */
  function NeighbourhoodSum(props: Properties, lines: seq<RoadMapLine>, i: nat): real
    requires WellFormedLines(lines) && i < |lines|
  {
    props.probDiffFac * NeighbourhoodRawSum(lines, i)
  }

  /** The diffusion update: the own share `1 - f` of the old probability
      plus the neighbours' mean scaled contribution. */
  function Mix(f: real, p: real, sum: real, count: real): real
    requires count > 0.0
  {
    (1.0 - f) * p + sum / count
  }

  /** `DiffuseProb` as written: `(1 - f) * p + sum / count`, where the
      single-precision `0f / 0` of a line without neighbours is NaN
      (`None` here). */
  function DiffuseProbAsWritten(props: Properties, lines: seq<RoadMapLine>, i: nat): (r: Option<real>)
    requires WellFormedLines(lines) && i < |lines|
    ensures r.None? <==> NeighbourhoodCount(lines, i) == 0.0
  {
    if NeighbourhoodCount(lines, i) == 0.0 then None
    else Some(Mix(props.probDiffFac, Probability(lines[i]), NeighbourhoodSum(props, lines, i),
                  NeighbourhoodCount(lines, i)))
  }

  /** `DiffuseProb` with the degenerate case handled: a line without
      neighbours keeps its probability. */
  function DiffuseProb(props: Properties, lines: seq<RoadMapLine>, i: nat): (r: real)
    requires WellFormedLines(lines) && i < |lines|
    ensures NeighbourhoodCount(lines, i) == 0.0 ==> r == Probability(lines[i])
    ensures DiffuseProbAsWritten(props, lines, i).Some? ==> r == DiffuseProbAsWritten(props, lines, i).value
  {
    match DiffuseProbAsWritten(props, lines, i)
    case None => Probability(lines[i])
    case Some(p) => p
  }

  /** The diffusion model's per-line step: diffuse, expand at `speed`, then
      the seen-checks. */
  function OccupancyLineUpdate(props: Properties, b: LineBehaviour, lines: seq<RoadMapLine>, i: nat,
                               guards: seq<Guard>, speed: real, timeDelta: real): (r: RoadMapLine)
    requires WellFormedLines(lines) && i < |lines|
    ensures r.wp1Connections == lines[i].wp1Connections && r.wp2Connections == lines[i].wp2Connections
  {
    var l1 := WithProbability(lines[i], DiffuseProb(props, lines, i));
    var l2 := l1.(segment := b.expandSs(l1, speed, timeDelta));
    CheckSeenSs(b, l2, guards)
  }

  /** The per-line step of the tick's loop: the simple model's step for
      `RmPropSimple`, the diffusion model's step otherwise. */
  function LineUpdate(planner: GuardSearchPlanner, props: Properties, b: LineBehaviour, lines: seq<RoadMapLine>,
                      i: nat, guards: seq<Guard>, speed: real, timeDelta: real): (r: RoadMapLine)
    requires WellFormedLines(lines) && i < |lines|
    ensures r.wp1Connections == lines[i].wp1Connections && r.wp2Connections == lines[i].wp2Connections
    ensures planner == RmPropSimple ==> r == SimpleLineUpdate(b, lines[i], guards, speed, timeDelta)
    ensures planner != RmPropSimple ==> r == OccupancyLineUpdate(props, b, lines, i, guards, speed, timeDelta)
  {
    if planner == RmPropSimple then SimpleLineUpdate(b, lines[i], guards, speed, timeDelta)
    else OccupancyLineUpdate(props, b, lines, i, guards, speed, timeDelta)
  }

  /** The `foreach` over the lines of one tick, from line `i` on, updating
      each line in place (later lines see earlier lines' new values) and
      tracking the largest probability read right after each line's update. */
  function Sweep(planner: GuardSearchPlanner, props: Properties, b: LineBehaviour, lines: seq<RoadMapLine>,
                 guards: seq<Guard>, speed: real, timeDelta: real, i: nat, maxProbability: real)
    : (r: (seq<RoadMapLine>, real))
    requires WellFormedLines(lines) && i <= |lines|
    ensures SameConnections(r.0, lines) && WellFormedLines(r.0)
    ensures forall j :: 0 <= j < i ==> r.0[j] == lines[j]
    ensures r.1 >= maxProbability
    ensures forall j :: i <= j < |lines| ==> Probability(r.0[j]) <= r.1
    ensures r.1 == maxProbability || exists j :: i <= j < |lines| && r.1 == Probability(r.0[j])
    decreases |lines| - i
  {
    if i == |lines| then (lines, maxProbability)
    else
      var line := LineUpdate(planner, props, b, lines, i, guards, speed, timeDelta);
      var prob := Probability(line);
      assert SameConnections(lines[i := line], lines);
      Sweep(planner, props, b, lines[i := line], guards, speed, timeDelta, i + 1,
            if maxProbability < prob then prob else maxProbability)
  }

  /** Line `j` of `updated` is the per-line update of the road map whose
      lines before `j` come from `updated` and the rest from `lines`. */
  predicate UpdatedInPlace(planner: GuardSearchPlanner, props: Properties, b: LineBehaviour,
                           updated: seq<RoadMapLine>, lines: seq<RoadMapLine>, j: nat, guards: seq<Guard>,
                           speed: real, timeDelta: real)
    requires j < |lines| <= |updated|
  {
    var seen := updated[..j] + lines[j..];
    WellFormedLines(seen) && updated[j] == LineUpdate(planner, props, b, seen, j, guards, speed, timeDelta)
  }

  lemma UpdatedInPlaceSuffix(planner: GuardSearchPlanner, props: Properties, b: LineBehaviour,
                             updated: seq<RoadMapLine>, lines: seq<RoadMapLine>, lines': seq<RoadMapLine>, j: nat,
                             guards: seq<Guard>, speed: real, timeDelta: real)
    requires j < |lines| == |lines'| <= |updated| && lines[j..] == lines'[j..]
    requires UpdatedInPlace(planner, props, b, updated, lines', j, guards, speed, timeDelta)
    ensures UpdatedInPlace(planner, props, b, updated, lines, j, guards, speed, timeDelta)
  {
  }

  /** The sweep updates in place and in order: line `j` is updated against
      the road map whose lines before `j` already hold their new values and
      whose remaining lines still hold their old ones. */
  lemma {:induction false} SweepUpdatesInPlace(planner: GuardSearchPlanner, props: Properties, b: LineBehaviour,
                                               lines: seq<RoadMapLine>, guards: seq<Guard>, speed: real,
                                               timeDelta: real, i: nat, maxProbability: real)
    requires WellFormedLines(lines) && i <= |lines|
    ensures forall j :: i <= j < |lines| ==>
      UpdatedInPlace(planner, props, b, Sweep(planner, props, b, lines, guards, speed, timeDelta, i, maxProbability).0,
                     lines, j, guards, speed, timeDelta)
    decreases |lines| - i
  {
    if i < |lines| {
      var line := LineUpdate(planner, props, b, lines, i, guards, speed, timeDelta);
      var prob := Probability(line);
      var lines' := lines[i := line];
      assert SameConnections(lines', lines);
      var m := if maxProbability < prob then prob else maxProbability;
      SweepUpdatesInPlace(planner, props, b, lines', guards, speed, timeDelta, i + 1, m);
      var r := Sweep(planner, props, b, lines', guards, speed, timeDelta, i + 1, m);
      assert r == Sweep(planner, props, b, lines, guards, speed, timeDelta, i, maxProbability);
      SweepFirstLine(planner, props, b, lines, r.0, guards, speed, timeDelta, i);
      forall j | i < j < |lines|
        ensures UpdatedInPlace(planner, props, b, r.0, lines, j, guards, speed, timeDelta)
      {
        UpdatedInPlaceSuffix(planner, props, b, r.0, lines, lines', j, guards, speed, timeDelta);
      }
    }
  }

  /** The line the sweep updates first is updated against the road map as it
      was, since the sweep keeps the lines before it. */
  lemma SweepFirstLine(planner: GuardSearchPlanner, props: Properties, b: LineBehaviour, lines: seq<RoadMapLine>,
                       updated: seq<RoadMapLine>, guards: seq<Guard>, speed: real, timeDelta: real, i: nat)
    requires WellFormedLines(lines) && i < |lines| <= |updated|
    requires forall j :: 0 <= j < i ==> updated[j] == lines[j]
    requires updated[i] == LineUpdate(planner, props, b, lines, i, guards, speed, timeDelta)
    ensures UpdatedInPlace(planner, props, b, updated, lines, i, guards, speed, timeDelta)
  {
    assert updated[..i] + lines[i..] == lines;
  }

  // ---------------------------------------------------------- normalisation

  /** `NormalizeProbs`: every probability divided by `maxProb`, or set to
      exactly 1 when `maxProb` is 0. Nothing but the probabilities changes. */
  function NormalizeProbs(lines: seq<RoadMapLine>, maxProb: real): (r: seq<RoadMapLine>)
    ensures |r| == |lines|
    ensures forall j :: 0 <= j < |r| ==> r[j] == WithProbability(lines[j], Probability(r[j]))
    ensures maxProb == 0.0 ==> forall j :: 0 <= j < |r| ==> Probability(r[j]) == 1.0
    ensures maxProb != 0.0 ==> forall j :: 0 <= j < |r| ==> Probability(r[j]) * maxProb == Probability(lines[j])
  {
    seq(|lines|, j requires 0 <= j < |lines| =>
      WithProbability(lines[j], if maxProb == 0.0 then 1.0 else Probability(lines[j]) / maxProb))
  }

  /** A positive maximum that bounds non-negative probabilities normalises
      them into [0, 1], and the segments at the maximum become exactly 1. */
  lemma NormalizeBounds(lines: seq<RoadMapLine>, maxProb: real)
    requires maxProb > 0.0
    requires forall j :: 0 <= j < |lines| ==> 0.0 <= Probability(lines[j]) <= maxProb
    ensures var r := NormalizeProbs(lines, maxProb);
      && (forall j :: 0 <= j < |r| ==> 0.0 <= Probability(r[j]) <= 1.0)
      && (forall j :: 0 <= j < |r| && Probability(lines[j]) == maxProb ==> Probability(r[j]) == 1.0)
  {
    var r := NormalizeProbs(lines, maxProb);
    forall j | 0 <= j < |r|
      ensures 0.0 <= Probability(r[j]) <= 1.0
    {
      var p := Probability(r[j]);
      assert p * maxProb == Probability(lines[j]);
    }
  }

  /** Normalising by a tick maximum (at least 0, at least every probability,
      and either 0 or reached by some line) leaves every probability at most
      1 and some probability exactly 1. */
  lemma NormalizedFieldPeaksAtOne(lines: seq<RoadMapLine>, maxProb: real)
    requires |lines| > 0 && maxProb >= 0.0
    requires forall j :: 0 <= j < |lines| ==> Probability(lines[j]) <= maxProb
    requires maxProb == 0.0 || exists j :: 0 <= j < |lines| && Probability(lines[j]) == maxProb
    ensures var r := NormalizeProbs(lines, maxProb);
      && (forall j :: 0 <= j < |r| ==> Probability(r[j]) <= 1.0)
      && (exists j :: 0 <= j < |r| && Probability(r[j]) == 1.0)
  {
    var r := NormalizeProbs(lines, maxProb);
    if maxProb == 0.0 {
      assert Probability(r[0]) == 1.0;
    } else {
      forall j | 0 <= j < |r|
        ensures Probability(r[j]) <= 1.0
      {
        var p := Probability(r[j]);
        assert p * maxProb == Probability(lines[j]);
      }
      var k :| 0 <= k < |lines| && Probability(lines[k]) == maxProb;
      assert Probability(r[k]) * maxProb == maxProb;
      assert Probability(r[k]) == 1.0;
    }
  }

  // ------------------------------------------------------------------ ticks

  /** `UpdateSimpleSearch`: normalises only when the tick maximum is below
      `MinSegThreshold`. */
  function UpdateSimpleSearch(props: Properties, b: LineBehaviour, lines: seq<RoadMapLine>, guards: seq<Guard>,
                              speed: real, timeDelta: real): (r: seq<RoadMapLine>)
    requires WellFormedLines(lines)
    ensures SameConnections(r, lines)
    ensures var swept := Sweep(RmPropSimple, props, b, lines, guards, speed, timeDelta, 0, 0.0);
      && ((exists j :: 0 <= j < |lines| && Probability(swept.0[j]) >= MinSegThreshold) ==> r == swept.0)
      && ((forall j :: 0 <= j < |lines| ==> Probability(swept.0[j]) < MinSegThreshold) ==>
            r == NormalizeProbs(swept.0, swept.1))
  {
    var (swept, maxProbability) := Sweep(RmPropSimple, props, b, lines, guards, speed, timeDelta, 0, 0.0);
    if maxProbability < MinSegThreshold then NormalizeProbs(swept, maxProbability) else swept
  }

  /** `UpdateOccupancySearch`: the diffusion sweep, always normalised by its
      tick maximum. */
  function UpdateOccupancySearch(props: Properties, b: LineBehaviour, lines: seq<RoadMapLine>, guards: seq<Guard>,
                                 speed: real, timeDelta: real): (r: seq<RoadMapLine>)
    requires WellFormedLines(lines)
    ensures SameConnections(r, lines)
    ensures var swept := Sweep(RmPropOccupancyDiffusal, props, b, lines, guards, speed, timeDelta, 0, 0.0);
      r == NormalizeProbs(swept.0, swept.1)
  {
    var (swept, maxProbability) := Sweep(RmPropOccupancyDiffusal, props, b, lines, guards, speed, timeDelta, 0, 0.0);
    NormalizeProbs(swept, maxProbability)
  }

  /** `UpdateSearcher`: dispatch on the session's search planner; any other
      planner leaves the field untouched. */
  function UpdateSearcher(planner: GuardSearchPlanner, props: Properties, b: LineBehaviour, lines: seq<RoadMapLine>,
                          guards: seq<Guard>, speed: real, timeDelta: real): (r: seq<RoadMapLine>)
    requires WellFormedLines(lines)
    ensures SameConnections(r, lines)
    ensures planner == OtherPlanner ==> r == lines
    ensures planner == RmPropOccupancyDiffusal && |lines| > 0 ==>
      && (forall j :: 0 <= j < |r| ==> Probability(r[j]) <= 1.0)
      && (exists j :: 0 <= j < |r| && Probability(r[j]) == 1.0)
    ensures planner == RmPropSimple && |lines| > 0 ==>
      exists j :: 0 <= j < |r| && Probability(r[j]) >= MinSegThreshold
  {
    match planner
    case RmPropSimple =>
      SimpleTickReachesThreshold(props, b, lines, guards, speed, timeDelta);
      UpdateSimpleSearch(props, b, lines, guards, speed, timeDelta)
    case RmPropOccupancyDiffusal =>
      OccupancyTickPeaksAtOne(props, b, lines, guards, speed, timeDelta);
      UpdateOccupancySearch(props, b, lines, guards, speed, timeDelta)
    case OtherPlanner => lines
  }

  /** After a diffusion tick the field's maximum is exactly 1. */
  lemma OccupancyTickPeaksAtOne(props: Properties, b: LineBehaviour, lines: seq<RoadMapLine>, guards: seq<Guard>,
                                speed: real, timeDelta: real)
    requires WellFormedLines(lines)
    ensures var r := UpdateOccupancySearch(props, b, lines, guards, speed, timeDelta);
      |lines| > 0 ==>
        && (forall j :: 0 <= j < |r| ==> Probability(r[j]) <= 1.0)
        && (exists j :: 0 <= j < |r| && Probability(r[j]) == 1.0)
  {
    var (swept, maxProbability) := Sweep(RmPropOccupancyDiffusal, props, b, lines, guards, speed, timeDelta, 0, 0.0);
    if |lines| > 0 {
      NormalizedFieldPeaksAtOne(swept, maxProbability);
    }
  }

  /** After a simple tick some segment is at least at the threshold: either
      the tick maximum already was, or normalisation lifted it to 1. */
  lemma SimpleTickReachesThreshold(props: Properties, b: LineBehaviour, lines: seq<RoadMapLine>, guards: seq<Guard>,
                                   speed: real, timeDelta: real)
    requires WellFormedLines(lines)
    ensures var r := UpdateSimpleSearch(props, b, lines, guards, speed, timeDelta);
      |lines| > 0 ==> exists j :: 0 <= j < |r| && Probability(r[j]) >= MinSegThreshold
  {
    var (swept, maxProbability) := Sweep(RmPropSimple, props, b, lines, guards, speed, timeDelta, 0, 0.0);
    if |lines| == 0 {
    } else if maxProbability < MinSegThreshold {
      var r := NormalizeProbs(swept, maxProbability);
      assert UpdateSimpleSearch(props, b, lines, guards, speed, timeDelta) == r;
      NormalizedFieldPeaksAtOne(swept, maxProbability);
      var k :| 0 <= k < |r| && Probability(r[k]) == 1.0;
    } else {
      assert maxProbability != 0.0;
      var k :| 0 <= k < |swept| && maxProbability == Probability(swept[k]);
    }
  }

  // -------------------------------------------------------------- diffusion

  /** Every connection other than `self` holds a probability in [lo, hi]. */
  predicate ConnectionsWithin(lines: seq<RoadMapLine>, self: nat, connections: seq<nat>, lo: real, hi: real)
    requires forall k :: 0 <= k < |connections| ==> connections[k] < |lines|
  {
    forall k :: 0 <= k < |connections| && connections[k] != self ==>
      lo <= Probability(lines[connections[k]]) <= hi
  }

  lemma ConnectionsWithinTail(lines: seq<RoadMapLine>, self: nat, connections: seq<nat>, lo: real, hi: real)
    requires |connections| > 0 && forall k :: 0 <= k < |connections| ==> connections[k] < |lines|
    requires ConnectionsWithin(lines, self, connections, lo, hi)
    ensures ConnectionsWithin(lines, self, connections[1..], lo, hi)
  {
    forall k | 0 <= k < |connections[1..]| && connections[1..][k] != self
      ensures lo <= Probability(lines[connections[1..][k]]) <= hi
    {
      assert connections[1..][k] == connections[k + 1];
    }
  }

  lemma MulNonNegative(a: real, b: real)
    requires a >= 0.0 && b >= 0.0
    ensures a * b >= 0.0
  {
  }

  lemma MulMonotone(f: real, a: real, b: real)
    requires f >= 0.0 && a <= b
    ensures f * a <= f * b
  {
    MulNonNegative(f, b - a);
    assert f * (b - a) == f * b - f * a;
  }

  /** `x` summed once per connection other than line `self`. */
  function PerNeighbour(self: nat, connections: seq<nat>, x: real): real
  {
    if connections == [] then 0.0
    else (if connections[0] != self then x else 0.0) + PerNeighbour(self, connections[1..], x)
  }

  lemma {:induction false} PerNeighbourIsProduct(self: nat, connections: seq<nat>, x: real)
    ensures PerNeighbour(self, connections, x) == x * NeighbourCount(self, connections)
  {
    if connections != [] {
      PerNeighbourIsProduct(self, connections[1..], x);
      var m := NeighbourCount(self, connections[1..]);
      assert x * (m + 1.0) == x * m + x;
    }
  }

  /** With every neighbour in [lo, hi], the unscaled sum lies between `lo`
      and `hi` counted once per neighbour. */
  lemma {:induction false} RawNeighbourSumBetween(lines: seq<RoadMapLine>, self: nat, connections: seq<nat>,
                                                  lo: real, hi: real)
    requires forall k :: 0 <= k < |connections| ==> connections[k] < |lines|
    requires ConnectionsWithin(lines, self, connections, lo, hi)
    ensures PerNeighbour(self, connections, lo) <= RawNeighbourSum(lines, self, connections)
              <= PerNeighbour(self, connections, hi)
  {
    if connections != [] {
      ConnectionsWithinTail(lines, self, connections, lo, hi);
      RawNeighbourSumBetween(lines, self, connections[1..], lo, hi);
    }
  }

  /** With every neighbour in [lo, hi], the unscaled sum lies between `lo`
      and `hi` times the neighbour count. */
  lemma RawNeighbourSumBounds(lines: seq<RoadMapLine>, self: nat, connections: seq<nat>, lo: real, hi: real)
    requires forall k :: 0 <= k < |connections| ==> connections[k] < |lines|
    requires ConnectionsWithin(lines, self, connections, lo, hi)
    ensures lo * NeighbourCount(self, connections) <= RawNeighbourSum(lines, self, connections)
    ensures RawNeighbourSum(lines, self, connections) <= hi * NeighbourCount(self, connections)
  {
    RawNeighbourSumBetween(lines, self, connections, lo, hi);
    PerNeighbourIsProduct(self, connections, lo);
    PerNeighbourIsProduct(self, connections, hi);
  }

  lemma QuotientBounds(a: real, n: real, lo: real, hi: real)
    requires n > 0.0 && lo * n <= a <= hi * n
    ensures lo <= a / n <= hi
  {
    var q := a / n;
    assert q * n == a;
  }

  /** Diffusion with a factor in [0, 1] is a convex combination: a line
      whose own probability and whose neighbours' probabilities lie in
      [lo, hi] keeps its new probability in [lo, hi]. */
  lemma DiffusionIsConvex(props: Properties, lines: seq<RoadMapLine>, i: nat, lo: real, hi: real)
    requires WellFormedLines(lines) && i < |lines|
    requires 0.0 <= props.probDiffFac <= 1.0
    requires lo <= Probability(lines[i]) <= hi
    requires ConnectionsWithin(lines, i, Neighbourhood(lines[i]), lo, hi)
    ensures lo <= DiffuseProb(props, lines, i) <= hi
  {
    if NeighbourhoodCount(lines, i) > 0.0 {
      DiffuseProbFormula(props, lines, i);
      NeighbourhoodMeanBounds(lines, i, lo, hi);
      MixConvex(props.probDiffFac, Probability(lines[i]), NeighbourhoodRawSum(lines, i),
                NeighbourhoodSum(props, lines, i), NeighbourhoodCount(lines, i), lo, hi);
    }
  }

  /** With every neighbour of line `i` in [lo, hi], so is their mean. */
  lemma NeighbourhoodMeanBounds(lines: seq<RoadMapLine>, i: nat, lo: real, hi: real)
    requires WellFormedLines(lines) && i < |lines| && NeighbourhoodCount(lines, i) > 0.0
    requires ConnectionsWithin(lines, i, Neighbourhood(lines[i]), lo, hi)
    ensures lo <= NeighbourhoodRawSum(lines, i) / NeighbourhoodCount(lines, i) <= hi
  {
    var n := Neighbourhood(lines[i]);
    var c := NeighbourCount(i, n);
    var r := RawNeighbourSum(lines, i, n);
    assert c == NeighbourhoodCount(lines, i) && r == NeighbourhoodRawSum(lines, i);
    assert lo <= r / c <= hi by {
      RawNeighbourSumBounds(lines, i, n, lo, hi);
      QuotientBounds(r, c, lo, hi);
    }
  }

  lemma DiffuseProbFormula(props: Properties, lines: seq<RoadMapLine>, i: nat)
    requires WellFormedLines(lines) && i < |lines| && NeighbourhoodCount(lines, i) > 0.0
    ensures DiffuseProb(props, lines, i)
      == Mix(props.probDiffFac, Probability(lines[i]), NeighbourhoodSum(props, lines, i),
             NeighbourhoodCount(lines, i))
  {
  }

  /** A neighbour mean in [lo, hi] keeps the diffused value in [lo, hi]. */
  lemma MixConvex(f: real, p: real, r: real, sum: real, count: real, lo: real, hi: real)
    requires 0.0 <= f <= 1.0 && lo <= p <= hi && count > 0.0
    requires lo <= r / count <= hi && sum == f * r
    ensures lo <= Mix(f, p, sum, count) <= hi
  {
    var q := r / count;
    ScaledQuotient(f, r, count);
    MulMonotone(f, lo, q);
    MulMonotone(f, q, hi);
    ConvexCombination(f, p, f * q, lo, hi);
  }

  lemma ScaledQuotient(f: real, r: real, n: real)
    requires n > 0.0
    ensures (f * r) / n == f * (r / n)
  {
    var q := r / n;
    assert q * n == r;
    assert f * q * n == f * r;
  }

  lemma ConvexCombination(f: real, p: real, q: real, lo: real, hi: real)
    requires 0.0 <= f <= 1.0 && lo <= p <= hi && f * lo <= q <= f * hi
    ensures lo <= (1.0 - f) * p + q <= hi
  {
    MulMonotone(1.0 - f, lo, p);
    MulMonotone(1.0 - f, p, hi);
    assert (1.0 - f) * lo + f * lo == lo;
    assert (1.0 - f) * hi + f * hi == hi;
  }

  /** A uniform neighbourhood is a fixed point of diffusion. */
  lemma DiffusionFixedPoint(props: Properties, lines: seq<RoadMapLine>, i: nat)
    requires WellFormedLines(lines) && i < |lines|
    requires ConnectionsWithin(lines, i, Neighbourhood(lines[i]), Probability(lines[i]), Probability(lines[i]))
    ensures DiffuseProb(props, lines, i) == Probability(lines[i])
  {
    var p := Probability(lines[i]);
    if NeighbourhoodCount(lines, i) > 0.0 {
      DiffuseProbFormula(props, lines, i);
      NeighbourhoodMeanBounds(lines, i, p, p);
      var f, r, c := props.probDiffFac, NeighbourhoodRawSum(lines, i), NeighbourhoodCount(lines, i);
      assert Mix(f, p, f * r, c) == p by {
        ScaledQuotient(f, r, c);
      }
    }
  }

  /** A line whose only connection is itself (a dead end on both sides)
      diffuses, as written, to `0 / 0`. */
  lemma IsolatedLineDiffusesToNaN(props: Properties, segment: SearchSegment)
    ensures var lines := [RoadMapLine(segment, [0], [])];
      && DiffuseProbAsWritten(props, lines, 0) == None
      && DiffuseProb(props, lines, 0) == segment.probability
  {
    var lines := [RoadMapLine(segment, [0], [])];
    assert Neighbourhood(lines[0]) == [0];
    assert NeighbourCount(0, [0]) == 0.0 by {
      assert [0][1..] == [];
    }
  }

  // -------------------------------------------------------- target choice

  /** `GetGoal().Value` on a busy guard without a goal throws. */
  datatype Fault = MissingGoal

  /** What a fitness evaluation reads besides the segment: the weights and
      constants, the line behaviour, the requesting guard, all guards, and
      `PathFinding.GetShortestPathDistance` over the session's navigation
      mesh, given as a function. */
  datatype SelectionContext = SelectionContext(
    props: Properties, weights: SearchWeights, behaviour: LineBehaviour, requester: Guard,
    guards: seq<Guard>, pathDistance: (Point, Point) -> real)

  predicate GoalsKnown(guards: seq<Guard>)
  {
    forall k :: 0 <= k < |guards| && guards[k].busy ==> guards[k].goal.Some?
  }

  predicate ValidContext(ctx: SelectionContext)
  {
    ctx.props.maxAge != 0.0 && ctx.props.maxPathDistance != 0.0 && GoalsKnown(ctx.guards)
  }

  /** Segments at or below the threshold are skipped. */
  predicate IsCandidate(segment: SearchSegment)
  {
    segment.probability > MinSegThreshold
  }

  predicate AnyCandidate(lines: seq<RoadMapLine>)
  {
    exists j :: 0 <= j < |lines| && IsCandidate(lines[j].segment)
  }

  function GoalDistance(ctx: SelectionContext, from: Point, k: nat): real
    requires GoalsKnown(ctx.guards) && k < |ctx.guards| && ctx.guards[k].busy
  {
    ctx.pathDistance(from, ctx.guards[k].goal.value)
  }

  /** The running minimum over the busy guards from `i` on, from `acc`. */
  function MinGoalScan(ctx: SelectionContext, from: Point, i: nat, acc: ExtReal): (r: ExtReal)
    requires GoalsKnown(ctx.guards) && i <= |ctx.guards| && !acc.NegInf?
    ensures !r.NegInf? && LessEq(r, acc)
    ensures forall k :: i <= k < |ctx.guards| && ctx.guards[k].busy ==> LessEq(r, Fin(GoalDistance(ctx, from, k)))
    ensures r == acc || exists k :: i <= k < |ctx.guards| && ctx.guards[k].busy && r == Fin(GoalDistance(ctx, from, k))
    decreases |ctx.guards| - i
  {
    if i == |ctx.guards| then acc
    else if !ctx.guards[i].busy then MinGoalScan(ctx, from, i + 1, acc)
    else
      var d := GoalDistance(ctx, from, i);
      MinGoalScan(ctx, from, i + 1, if Less(Fin(d), acc) then Fin(d) else acc)
  }

  /** The path distance from `from` to the nearest goal of a busy guard, or
      0 when no guard is busy. */
  function MinGoalDistance(ctx: SelectionContext, from: Point): (r: real)
    requires GoalsKnown(ctx.guards)
    ensures (forall k :: 0 <= k < |ctx.guards| ==> !ctx.guards[k].busy) ==> r == 0.0
    ensures forall k :: 0 <= k < |ctx.guards| && ctx.guards[k].busy ==> r <= GoalDistance(ctx, from, k)
    ensures (exists k :: 0 <= k < |ctx.guards| && ctx.guards[k].busy) ==>
      exists k :: 0 <= k < |ctx.guards| && ctx.guards[k].busy && r == GoalDistance(ctx, from, k)
  {
    var m := MinGoalScan(ctx, from, 0, PosInf);
    if m.PosInf? then 0.0 else m.v
  }

  /** The weighted sum the selection maximises: the line behaviour's fitness,
      the age over `MaxAge`, the distance to the nearest busy guard's goal and
      the requester's own path distance, both over `MaxPathDistance`. Each
      unit weight selects its own term; what the order of fitness means is
      stated by `OlderSegmentIsFitter` and `FartherFromGoalsIsFitter`. */
  function Fitness(ctx: SelectionContext, segment: SearchSegment): (r: real)
    requires ValidContext(ctx)
    ensures var w := ctx.weights;
      r == w.probWeight * ctx.behaviour.fitness(segment)
         + w.ageWeight * (segment.age / ctx.props.maxAge)
         + w.dstToGuardsWeight * (MinGoalDistance(ctx, ctx.behaviour.midPoint(segment)) / ctx.props.maxPathDistance)
         + w.dstFromOwnWeight
           * (ctx.pathDistance(Midpoint(segment.position1, segment.position2), ctx.requester.position)
              / ctx.props.maxPathDistance)
    ensures ctx.weights == SearchWeights(1.0, 0.0, 0.0, 0.0) ==> r == ctx.behaviour.fitness(segment)
    ensures ctx.weights == SearchWeights(0.0, 1.0, 0.0, 0.0) ==> r * ctx.props.maxAge == segment.age
    ensures ctx.weights == SearchWeights(0.0, 0.0, 1.0, 0.0) ==>
      r * ctx.props.maxPathDistance == MinGoalDistance(ctx, ctx.behaviour.midPoint(segment))
    ensures ctx.weights == SearchWeights(0.0, 0.0, 0.0, 1.0) ==>
      r * ctx.props.maxPathDistance
      == ctx.pathDistance(Midpoint(segment.position1, segment.position2), ctx.requester.position)
  {
    var b := ctx.behaviour;
    var w := ctx.weights;
    var minGoalDistance := MinGoalDistance(ctx, b.midPoint(segment));
    var distanceToGuard := ctx.pathDistance(Midpoint(segment.position1, segment.position2), ctx.requester.position);
    b.fitness(segment) * w.probWeight
    + (segment.age / ctx.props.maxAge) * w.ageWeight
    + (minGoalDistance / ctx.props.maxPathDistance) * w.dstToGuardsWeight
    + (distanceToGuard / ctx.props.maxPathDistance) * w.dstFromOwnWeight
  }

  /** The age term rewards age: of two segments that differ in nothing the
      line behaviour reads but their age, the older is strictly fitter,
      exactly when the age weight and `MaxAge` are positive. */
  lemma OlderSegmentIsFitter(ctx: SelectionContext, s1: SearchSegment, s2: SearchSegment)
    requires ValidContext(ctx) && ctx.weights.ageWeight > 0.0 && ctx.props.maxAge > 0.0
    requires s1.position1 == s2.position1 && s1.position2 == s2.position2
    requires ctx.behaviour.fitness(s1) == ctx.behaviour.fitness(s2)
    requires ctx.behaviour.midPoint(s1) == ctx.behaviour.midPoint(s2)
    ensures s1.age < s2.age <==> Fitness(ctx, s1) < Fitness(ctx, s2)
  {
    var w, m := ctx.weights, ctx.props;
    var rest := ctx.behaviour.fitness(s1) * w.probWeight
      + (MinGoalDistance(ctx, ctx.behaviour.midPoint(s1)) / m.maxPathDistance) * w.dstToGuardsWeight
      + (ctx.pathDistance(Midpoint(s1.position1, s1.position2), ctx.requester.position) / m.maxPathDistance)
        * w.dstFromOwnWeight;
    var x1, x2 := (s1.age / m.maxAge) * w.ageWeight, (s2.age / m.maxAge) * w.ageWeight;
    assert Fitness(ctx, s1) == rest + x1;
    assert Fitness(ctx, s2) == rest + x2;
    QuotientOrder(s1.age, s2.age, m.maxAge);
    ScaleOrder(s1.age / m.maxAge, s2.age / m.maxAge, w.ageWeight);
    assert s1.age < s2.age <==> x1 < x2;
  }

  /** The goal-distance term spreads the guards out: of two segments that
      differ in nothing but where the line behaviour puts their midpoint, the
      one farther from the nearest busy guard's goal is strictly fitter,
      exactly when that weight and `MaxPathDistance` are positive. */
  lemma FartherFromGoalsIsFitter(ctx: SelectionContext, s1: SearchSegment, s2: SearchSegment)
    requires ValidContext(ctx) && ctx.weights.dstToGuardsWeight > 0.0 && ctx.props.maxPathDistance > 0.0
    requires s1.position1 == s2.position1 && s1.position2 == s2.position2 && s1.age == s2.age
    requires ctx.behaviour.fitness(s1) == ctx.behaviour.fitness(s2)
    ensures var d1, d2 := MinGoalDistance(ctx, ctx.behaviour.midPoint(s1)), MinGoalDistance(ctx, ctx.behaviour.midPoint(s2));
      d1 < d2 <==> Fitness(ctx, s1) < Fitness(ctx, s2)
  {
    var d1, d2 := MinGoalDistance(ctx, ctx.behaviour.midPoint(s1)), MinGoalDistance(ctx, ctx.behaviour.midPoint(s2));
    var w, m := ctx.weights, ctx.props;
    var rest := ctx.behaviour.fitness(s1) * w.probWeight + (s1.age / m.maxAge) * w.ageWeight
      + (ctx.pathDistance(Midpoint(s1.position1, s1.position2), ctx.requester.position) / m.maxPathDistance)
        * w.dstFromOwnWeight;
    var x1, x2 := (d1 / m.maxPathDistance) * w.dstToGuardsWeight, (d2 / m.maxPathDistance) * w.dstToGuardsWeight;
    assert Fitness(ctx, s1) == rest + x1;
    assert Fitness(ctx, s2) == rest + x2;
    QuotientOrder(d1, d2, m.maxPathDistance);
    ScaleOrder(d1 / m.maxPathDistance, d2 / m.maxPathDistance, w.dstToGuardsWeight);
    assert d1 < d2 <==> x1 < x2;
  }

  lemma ScaleOrder(a: real, b: real, w: real)
    requires w > 0.0
    ensures a < b <==> a * w < b * w
  {
    assert b * w - a * w == (b - a) * w;
    if a < b {
      MulPositive(b - a, w);
    } else {
      MulNonNegative(w, a - b);
      assert (a - b) * w == w * (a - b);
    }
  }

  lemma QuotientOrder(a: real, b: real, m: real)
    requires m > 0.0
    ensures a < b <==> a / m < b / m
  {
    assert a == (a / m) * m && b == (b / m) * m;
    ScaleOrder(a / m, b / m, m);
  }

  lemma MulPositive(x: real, y: real)
    requires x > 0.0 && y > 0.0
    ensures x * y > 0.0
  {
  }

  function LineFitness(ctx: SelectionContext, lines: seq<RoadMapLine>, j: nat): real
    requires ValidContext(ctx) && j < |lines|
  {
    Fitness(ctx, lines[j].segment)
  }

  /** The fitness of every line, in line order. The source evaluates it
      inside the selection loop; it reads nothing the loop changes. */
  function FitnessValues(ctx: SelectionContext, lines: seq<RoadMapLine>): (fit: seq<real>)
    requires ValidContext(ctx)
    ensures |fit| == |lines| && forall j :: 0 <= j < |lines| ==> fit[j] == LineFitness(ctx, lines, j)
  {
    seq(|lines|, j requires 0 <= j < |lines| => LineFitness(ctx, lines, j))
  }

  /** The scan state after the lines before `i`: the best candidate so far
      is of maximal fitness, strictly fitter than every earlier candidate,
      and `maxFitness` is its fitness (negative infinity while none). */
  predicate BestSoFar(lines: seq<RoadMapLine>, fit: seq<real>, i: nat, maxFitness: ExtReal, best: Option<nat>)
    requires |fit| == |lines| && i <= |lines|
  {
    && (best.None? <==> forall j :: 0 <= j < i ==> !IsCandidate(lines[j].segment))
    && (best.None? ==> maxFitness == NegInf)
    && (best.Some? ==>
          && best.value < i
          && IsCandidate(lines[best.value].segment)
          && maxFitness == Fin(fit[best.value])
          && (forall j :: 0 <= j < i && IsCandidate(lines[j].segment) ==> fit[j] <= fit[best.value])
          && (forall j :: 0 <= j < best.value && IsCandidate(lines[j].segment) ==> fit[j] < fit[best.value]))
  }

  /** The selection loop from line `i` on: a candidate strictly fitter than
      the maximum so far replaces the choice. */
  function BestScan(lines: seq<RoadMapLine>, fit: seq<real>, i: nat, maxFitness: ExtReal, best: Option<nat>)
    : (r: Option<nat>)
    requires |fit| == |lines| && i <= |lines| && BestSoFar(lines, fit, i, maxFitness, best)
    ensures exists m :: BestSoFar(lines, fit, |lines|, m, r)
    decreases |lines| - i
  {
    if i == |lines| then best
    else if !IsCandidate(lines[i].segment) then BestScan(lines, fit, i + 1, maxFitness, best)
    else if Less(maxFitness, Fin(fit[i])) then BestScan(lines, fit, i + 1, Fin(fit[i]), Some(i))
    else BestScan(lines, fit, i + 1, maxFitness, best)
  }

  /** The index of the segment to search: the first of maximal fitness among
      the segments above the threshold. */
  function BestSegment(ctx: SelectionContext, lines: seq<RoadMapLine>): (r: Option<nat>)
    requires ValidContext(ctx)
    ensures r.None? <==> !AnyCandidate(lines)
    ensures r.Some? ==>
      && r.value < |lines|
      && IsCandidate(lines[r.value].segment)
      && (forall j :: 0 <= j < |lines| && IsCandidate(lines[j].segment) ==>
            LineFitness(ctx, lines, j) <= LineFitness(ctx, lines, r.value))
      && (forall j :: 0 <= j < r.value && IsCandidate(lines[j].segment) ==>
            LineFitness(ctx, lines, j) < LineFitness(ctx, lines, r.value))
  {
    var fit := FitnessValues(ctx, lines);
    var r := BestScan(lines, fit, 0, NegInf, None);
    var m :| BestSoFar(lines, fit, |lines|, m, r);
    r
  }

  /** `GetSearchSegment`: the midpoint of the best segment, nothing when no
      segment is above the threshold, and a fault when a segment is
      evaluated while a busy guard has no goal. */
  function GetSearchSegment(ctx: SelectionContext, lines: seq<RoadMapLine>): (r: Result<Option<Point>, Fault>)
    requires ctx.props.maxAge != 0.0 && ctx.props.maxPathDistance != 0.0
    ensures r.Failure? <==> AnyCandidate(lines) && !GoalsKnown(ctx.guards)
    ensures r == Success(None) <==> !AnyCandidate(lines)
    ensures r.Success? && r.value.Some? ==>
      exists k :: 0 <= k < |lines| && IsCandidate(lines[k].segment)
        && r.value.value == Midpoint(lines[k].segment.position1, lines[k].segment.position2)
        && (forall j :: 0 <= j < |lines| && IsCandidate(lines[j].segment) ==>
              LineFitness(ctx, lines, j) <= LineFitness(ctx, lines, k))
  {
    if !AnyCandidate(lines) then Success(None)
    else if !GoalsKnown(ctx.guards) then Failure(MissingGoal)
    else
      var k := BestSegment(ctx, lines).value;
      Success(Some(Midpoint(lines[k].segment.position1, lines[k].segment.position2)))
  }

  /** The selection never sends a guard to a segment when another candidate
      differs from it only in being older. */
  lemma NeverPicksYounger(ctx: SelectionContext, lines: seq<RoadMapLine>, j: nat, k: nat)
    requires ValidContext(ctx) && ctx.weights.ageWeight > 0.0 && ctx.props.maxAge > 0.0
    requires j < |lines| && k < |lines| && IsCandidate(lines[j].segment) && IsCandidate(lines[k].segment)
    requires lines[j].segment.position1 == lines[k].segment.position1
    requires lines[j].segment.position2 == lines[k].segment.position2
    requires ctx.behaviour.fitness(lines[j].segment) == ctx.behaviour.fitness(lines[k].segment)
    requires ctx.behaviour.midPoint(lines[j].segment) == ctx.behaviour.midPoint(lines[k].segment)
    requires lines[j].segment.age < lines[k].segment.age
    ensures BestSegment(ctx, lines) != Some(j)
  {
    OlderSegmentIsFitter(ctx, lines[j].segment, lines[k].segment);
  }

  /** After a diffusion tick a search target always exists. */
  lemma TargetExistsAfterOccupancyTick(ctx: SelectionContext, lines: seq<RoadMapLine>, speed: real, timeDelta: real)
    requires WellFormedLines(lines) && |lines| > 0 && ValidContext(ctx)
    ensures var r := UpdateOccupancySearch(ctx.props, ctx.behaviour, lines, ctx.guards, speed, timeDelta);
      GetSearchSegment(ctx, r).Success? && GetSearchSegment(ctx, r).value.Some?
  {
    var r := UpdateOccupancySearch(ctx.props, ctx.behaviour, lines, ctx.guards, speed, timeDelta);
    OccupancyTickPeaksAtOne(ctx.props, ctx.behaviour, lines, ctx.guards, speed, timeDelta);
    var k :| 0 <= k < |r| && Probability(r[k]) == 1.0;
    assert IsCandidate(r[k].segment);
  }

  /** A road map with one segment above the threshold sends the guard to
      that segment's midpoint. */
  lemma SingleSegmentIsTarget(ctx: SelectionContext, segment: SearchSegment, c1: seq<nat>, c2: seq<nat>)
    requires ValidContext(ctx) && IsCandidate(segment)
    ensures GetSearchSegment(ctx, [RoadMapLine(segment, c1, c2)])
      == Success(Some(Midpoint(segment.position1, segment.position2)))
  {
    var lines := [RoadMapLine(segment, c1, c2)];
    assert IsCandidate(lines[0].segment);
  }
}

=== FILE: vis_mesh_guard.dfy ===
/** The patrol decision of a guard that watches the visibility mesh: go to the
    centroid of the stalest visibility polygon, preferring a nearer one among
    polygons whose staleness differs by less than one. */
module VisMeshGuard {
  import opened Wrappers
  import opened ExtReals
  import opened Geometry
  import opened NavMesh

  /** A polygon of the visibility mesh: its centroid and how long it has gone
      unseen. */
  datatype VisibilityPolygon = VisibilityPolygon(centroid: Point, staleness: real)

  datatype PatrolPlanner = Stalest | Random | UserInput

  /** `GetCentroidPosition()` called on a `null` polygon. */
  datatype Fault = NullReference

  /** The state of the scan over the mesh: `maxStaleness` and the index of
      `stalestPolygon`, `None` standing for `null`. */
  datatype Scan = Scan(maxStaleness: ExtReal, stalest: Option<nat>)

  function Abs(x: real): (r: real)
    ensures r >= 0.0 && (r == x || r == -x)
  {
    if x < 0.0 then -x else x
  }

  /** Every state the scan can be in: the maximum is never `+Infinity`, and a
      finite maximum comes with a chosen polygon of the mesh. */
  predicate ScanReady(polygons: seq<VisibilityPolygon>, s: Scan)
  {
    && !s.maxStaleness.PosInf?
    && (s.stalest.Some? ==> s.stalest.value < |polygons|)
    && (s.maxStaleness.Fin? ==> s.stalest.Some?)
  }

  /** The replacement of the scan state by polygon `i`. */
  function Take(polygons: seq<VisibilityPolygon>, i: nat): Scan
    requires i < |polygons|
  {
    Scan(Fin(polygons[i].staleness), Some(i))
  }

  /** Distance from the guard to the centroid of polygon `i`. */
  function DistanceTo(polygons: seq<VisibilityPolygon>, dist: Distance, position: Point, i: nat): real
    requires i < |polygons|
  {
    dist(position, polygons[i].centroid)
  }

  /** One iteration of the scan over polygon `i`: a polygon at least as stale
      as the maximum is taken, unless it is within one of the maximum and
      strictly farther away than the polygon chosen so far. */
  function ScanStep(polygons: seq<VisibilityPolygon>, dist: Distance, position: Point, s: Scan, i: nat)
    : (r: Scan)
    requires i < |polygons| && ScanReady(polygons, s)
    ensures ScanReady(polygons, r)
    ensures r == s || r == Take(polygons, i)
    ensures LessEq(s.maxStaleness, r.maxStaleness)
    ensures s.maxStaleness.NegInf? ==> r == Take(polygons, i)
    ensures s.maxStaleness.Fin? && polygons[i].staleness < s.maxStaleness.v ==> r == s
    ensures s.maxStaleness.Fin? && polygons[i].staleness >= s.maxStaleness.v + 1.0 ==> r == Take(polygons, i)
    ensures s.maxStaleness.Fin? && s.maxStaleness.v <= polygons[i].staleness < s.maxStaleness.v + 1.0 ==>
      (r == Take(polygons, i)
       <==> DistanceTo(polygons, dist, position, i) <= DistanceTo(polygons, dist, position, s.stalest.value))
  {
    var vp := polygons[i];
    if LessEq(s.maxStaleness, Fin(vp.staleness)) then
      if s.maxStaleness.Fin? && Abs(s.maxStaleness.v - vp.staleness) < 1.0
         && DistanceTo(polygons, dist, position, s.stalest.value) < DistanceTo(polygons, dist, position, i)
      then s
      else Take(polygons, i)
    else s
  }

  /** The scan from polygon `i` to the end of the mesh. */
  function ScanFrom(polygons: seq<VisibilityPolygon>, dist: Distance, position: Point, s: Scan, i: nat)
    : (r: Scan)
    requires i <= |polygons| && ScanReady(polygons, s)
    ensures ScanReady(polygons, r)
    ensures LessEq(s.maxStaleness, r.maxStaleness)
    ensures r == s || (r.stalest.Some? && i <= r.stalest.value < |polygons| && r == Take(polygons, r.stalest.value))
    decreases |polygons| - i
  {
    if i == |polygons| then s
    else ScanFrom(polygons, dist, position, ScanStep(polygons, dist, position, s, i), i + 1)
  }

  /** What the scan knows after the first `i` polygons: nothing before the
      first, then a finite maximum that is the staleness of a polygon already
      scanned and less than one below no scanned polygon. */
  predicate ScannedUpTo(polygons: seq<VisibilityPolygon>, s: Scan, i: nat)
  {
    && i <= |polygons|
    && ScanReady(polygons, s)
    && (i == 0 ==> s.maxStaleness.NegInf?)
    && (i > 0 ==>
          && s.maxStaleness.Fin?
          && s.stalest.value < i
          && polygons[s.stalest.value].staleness == s.maxStaleness.v
          && forall j :: 0 <= j < i ==> polygons[j].staleness < s.maxStaleness.v + 1.0)
  }

  lemma ScanStepKeeps(polygons: seq<VisibilityPolygon>, dist: Distance, position: Point, s: Scan, i: nat)
    requires i < |polygons| && ScannedUpTo(polygons, s, i)
    ensures ScannedUpTo(polygons, ScanStep(polygons, dist, position, s, i), i + 1)
  {
    var r := ScanStep(polygons, dist, position, s, i);
    forall j | 0 <= j < i + 1
      ensures polygons[j].staleness < r.maxStaleness.v + 1.0
    {
      if j < i {
        assert polygons[j].staleness < s.maxStaleness.v + 1.0;
      }
    }
  }

  lemma {:induction false} ScanFromKeeps(polygons: seq<VisibilityPolygon>, dist: Distance, position: Point,
                                         s: Scan, i: nat)
    requires ScannedUpTo(polygons, s, i)
    ensures ScannedUpTo(polygons, ScanFrom(polygons, dist, position, s, i), |polygons|)
    decreases |polygons| - i
  {
    if i < |polygons| {
      ScanStepKeeps(polygons, dist, position, s, i);
      ScanFromKeeps(polygons, dist, position, ScanStep(polygons, dist, position, s, i), i + 1);
    }
  }

  /** The scan's starting state: no maximum yet, and the polygon the guard
      stands in (`GetCorrespondingPolygon`) as the provisional choice. */
  function InitialScan(polygons: seq<VisibilityPolygon>, contains: (nat, Point) -> bool, position: Point)
    : (s: Scan)
    ensures ScannedUpTo(polygons, s, 0)
    ensures s.stalest.Some? ==>
      && contains(s.stalest.value, position)
      && forall j :: 0 <= j < s.stalest.value ==> !contains(j, position)
    ensures s.stalest.None? <==> forall j :: 0 <= j < |polygons| ==> !contains(j, position)
  {
    Scan(NegInf, VisibilityPolygonAt(|polygons|, contains, position))
  }

  /** `GetStalestPolygon`: `null` exactly for an empty mesh; otherwise a
      polygon of the mesh that no polygon outstales by one or more. */
  function GetStalestPolygon(polygons: seq<VisibilityPolygon>, contains: (nat, Point) -> bool, dist: Distance,
                             position: Point): (r: Option<nat>)
    ensures r.None? <==> |polygons| == 0
    ensures r.Some? ==> r.value < |polygons|
    ensures r.Some? ==> forall j :: 0 <= j < |polygons| ==>
      polygons[j].staleness < polygons[r.value].staleness + 1.0
  {
    var s := InitialScan(polygons, contains, position);
    ScanFromKeeps(polygons, dist, position, s, 0);
    ScanFrom(polygons, dist, position, s, 0).stalest
  }

  /** A polygon staler by one or more than every other is the one chosen:
      any other choice would be outstaled by one. */
  lemma StalestByOneIsChosen(polygons: seq<VisibilityPolygon>, contains: (nat, Point) -> bool, dist: Distance,
                             position: Point, m: nat)
    requires m < |polygons|
    requires forall j :: 0 <= j < |polygons| && j != m ==> polygons[j].staleness + 1.0 <= polygons[m].staleness
    ensures GetStalestPolygon(polygons, contains, dist, position) == Some(m)
  {
  }

  /** Among polygons of equal staleness the nearest is chosen, and of
      several equally near ones the last. */
  lemma EqualStalenessPicksNearest(polygons: seq<VisibilityPolygon>, contains: (nat, Point) -> bool,
                                   dist: Distance, position: Point)
    requires |polygons| > 0
    requires forall j :: 0 <= j < |polygons| ==> polygons[j].staleness == polygons[0].staleness
    ensures var r := GetStalestPolygon(polygons, contains, dist, position);
      && r.Some?
      && (forall j :: 0 <= j < |polygons| ==>
            DistanceTo(polygons, dist, position, r.value) <= DistanceTo(polygons, dist, position, j))
      && (forall j :: r.value < j < |polygons| ==>
            DistanceTo(polygons, dist, position, r.value) < DistanceTo(polygons, dist, position, j))
  {
    var s := InitialScan(polygons, contains, position);
    NearestSurvives(polygons, dist, position, s, 0);
  }

  /** The chosen polygon is the nearest of the first `i`, and strictly nearer
      than every later one of them. */
  predicate NearestSoFar(polygons: seq<VisibilityPolygon>, dist: Distance, position: Point, s: Scan, i: nat)
    requires ScannedUpTo(polygons, s, i)
  {
    i > 0 ==>
      && (forall j :: 0 <= j < i ==>
            DistanceTo(polygons, dist, position, s.stalest.value) <= DistanceTo(polygons, dist, position, j))
      && (forall j :: s.stalest.value < j < i ==>
            DistanceTo(polygons, dist, position, s.stalest.value) < DistanceTo(polygons, dist, position, j))
  }

  lemma {:induction false} NearestSurvives(polygons: seq<VisibilityPolygon>, dist: Distance, position: Point,
                                           s: Scan, i: nat)
    requires ScannedUpTo(polygons, s, i) && NearestSoFar(polygons, dist, position, s, i)
    requires forall j :: 0 <= j < |polygons| ==> polygons[j].staleness == polygons[0].staleness
    ensures ScannedUpTo(polygons, ScanFrom(polygons, dist, position, s, i), |polygons|)
    ensures NearestSoFar(polygons, dist, position, ScanFrom(polygons, dist, position, s, i), |polygons|)
    decreases |polygons| - i
  {
    if i < |polygons| {
      var r := ScanStep(polygons, dist, position, s, i);
      ScanStepKeeps(polygons, dist, position, s, i);
      if i > 0 && r == s {
        assert DistanceTo(polygons, dist, position, s.stalest.value) < DistanceTo(polygons, dist, position, i);
      }
      NearestSurvives(polygons, dist, position, r, i + 1);
    }
  }

  /** `GetPatrolGoal` outside play input: the stalest polygon's centroid
      (failing on an empty mesh, where `GetStalestPolygon` returns `null`),
      the clicked point (`inputPoint`, read by the caller) or no goal. */
  function GetPatrolGoal(planner: PatrolPlanner, polygons: seq<VisibilityPolygon>, contains: (nat, Point) -> bool,
                         dist: Distance, position: Point, inputPoint: Option<Point>)
    : (r: Result<Option<Point>, Fault>)
    ensures r.Failure? <==> planner.Stalest? && |polygons| == 0
    ensures planner.Stalest? && r.Success? ==>
      && r.value.Some?
      && (exists k :: 0 <= k < |polygons| && r.value.value == polygons[k].centroid
            && forall j :: 0 <= j < |polygons| ==> polygons[j].staleness < polygons[k].staleness + 1.0)
    ensures planner.UserInput? ==> r == Success(inputPoint)
    ensures planner.Random? ==> r == Success(None)
  {
    match planner
    case Stalest =>
      (match GetStalestPolygon(polygons, contains, dist, position)
       case None => Failure(NullReference)
       case Some(k) => Success(Some(polygons[k].centroid)))
    case UserInput => Success(inputPoint)
    case Random => Success(None)
  }
}

=== FILE: wrappers.dfy ===
/** Optional values and error returns. `None` stands for the source's `null`
    references and `Vector2?` values; `Failure` for a run-time exception. */
module Wrappers {

  datatype Option<+T> = None | Some(value: T)

  datatype Result<+T, +E> = Success(value: T) | Failure(error: E)
}
